=== FILE: README.md ===
# Tello drone control pipeline — Dafny model

This project models the decision logic of a small drone-piloting application
built on the djitellopy `Tello` SDK. The threads, sockets, OpenCV, EasyOCR
and the H.264 decoder are left out. What remains are four sequential pieces,
each written as pure functions over immutable state:

- **Frame channel** (`VideoDriver`, file `video_driver.dfy`). This is the
  driver's `initialized` / `frozen` / `frame` / `last_frame` state machine:
  `initialize`, `shutdown`, `read`, `video_freeze`. It also covers the
  receive loop that collects UDP datagrams into a buffer. A datagram whose
  length is not 1460 ends a picture and hands the buffer to the decoder.
  `_h264_decode` then turns the decoder's raw pictures into `h x w x 3`
  images.
- **Height guard** (`HeightGuard`, file `height_guard.dfy`). One iteration
  of the guard loop reads the height, records it, and climbs 20 cm when the
  reading is below the floor (default 100). `stop` is modelled too.
- **poc-6 session** (`Session` and `Poc6`, files `session.dfy` and
  `poc6.dfy`). The world holds the camera, `has_taken_off`, the guard
  handle, and the guards the session has let go of. Each key handler and
  each macro handler is a short program of primitive steps, run by `Exec`.
  An SDK call that raises `TelloException` cuts the program short. An
  exception that no handler catches ends the consumer thread. Each consumer
  is a fold over its queue. The main loop's key producer and detection
  producer are a fold over iterations.
- **poc-5 loop** (`Poc5`, file `poc5.dfy`). This is the earlier
  single-threaded loop. It has no guard, `l` does not clear the flag, an
  uncaught SDK exception ends the program, and detections are only logged.

`Console` (`console.dfy`) holds what the two scripts share:
- `waitKey` masking
- the key codes
- the confidence filter `int(confidence*100) > 80`
- reading a frame for recognition

`Tello` (`tello.dfy`) lists the SDK commands as data. `Common`
(`common.dfy`) holds `Option`, `Result`, `byte` and sequence flattening.

SDK failures are an input. `fault: Option<nat>` names the call, counted
from 0 within one operation, that raises. A poc-5 iteration makes at most
one SDK call, so `Poc5.KeyPart` and `Poc5.Step` take a `raises: bool`
instead. The decoder is an uninterpreted
function from the handed buffer to a list of raw pictures. Recognition
results, height readings and camera snapshots are input sequences.

## Model

| member | source | states |
|---|---|---|
| VideoDriver.New | VideoDriver/video_driver.py:20-38 | a fresh driver is not initialized, not frozen, and has neither a frame nor a snapshot |
| VideoDriver.Initialize | VideoDriver/video_driver.py:44-55 | on an initialized driver: no call, no change. Otherwise: `connect` then `streamon`. The flag becomes true unless one of them raised, and nothing else changes |
| VideoDriver.InitializeIdempotent | VideoDriver/video_driver.py:44-55 | a second `initialize` after a successful one makes no call and changes nothing |
| VideoDriver.Shutdown | VideoDriver/video_driver.py:57-67 | on an uninitialized driver: no call, no change. Otherwise: `streamoff`, then the flag is cleared unless it raised. Frame fields are never touched |
| VideoDriver.ShutdownIdempotent | VideoDriver/video_driver.py:57-67 | a second `shutdown` after a successful one makes no call and changes nothing |
| VideoDriver.Read | VideoDriver/video_driver.py:69-76 | fails exactly when not initialized. Returns status 0 with the snapshot when frozen, status 1 with the live frame otherwise, and no other status |
| VideoDriver.VideoFreeze | VideoDriver/video_driver.py:78-84 | fails exactly when not initialized. Sets `frozen`; freezing copies the current frame into the snapshot; unfreezing keeps the snapshot; the live frame is never changed |
| VideoDriver.FreshDriverReadsLiveNothing | VideoDriver/video_driver.py:20-76 | right after `initialize`, with nothing decoded, `read` returns status 1 with no frame: there is no separate "no frame" status |
| VideoDriver.PublishAll | VideoDriver/video_driver.py:100-101 | publishing decoded pictures makes the last one current, changes nothing when there are none, and touches no other field |
| VideoDriver.FrozenReadIgnoresPublication | VideoDriver/video_driver.py:78-101 | after `video_freeze(True)`, `read` returns the frame that was current at the call, whatever is published afterwards |
| VideoDriver.DecodeFrame | VideoDriver/video_driver.py:117-125 | a picture with data is shaped exactly when its byte count is `h * (line_size // 3) * 3` (otherwise `reshape` raises). The result has `h` rows of `min(w, line_size // 3)` pixels |
| VideoDriver.PixelsRoundTrip | VideoDriver/video_driver.py:122-123 | grouping bytes three at a time into pixels and reading them back gives the same bytes |
| VideoDriver.RowsRoundTrip | VideoDriver/video_driver.py:122-123 | reshaping into `h` rows and flattening back gives the same bytes |
| VideoDriver.DecodeFrameRoundTrip | VideoDriver/video_driver.py:117-124 | when `w` covers the whole line, the decoded image's bytes are exactly the decoder's bytes |
| VideoDriver.NonNull | VideoDriver/video_driver.py:117-119 | drops exactly the pictures without data and keeps the rest |
| VideoDriver.NonNullSingle | VideoDriver/video_driver.py:117-119 | a single picture is kept exactly when it carries data |
| VideoDriver.NonNullAppend | VideoDriver/video_driver.py:117-119 | dropping empty pictures from two batches in turn equals dropping them from both together; with `NonNullSingle`, the kept pictures are the ones with data, each once, in decoder order |
| VideoDriver.H264Decode | VideoDriver/video_driver.py:107-127 | succeeds exactly when every picture with data fits its shape. Then it returns one image per picture with data, in order, each being that picture's shaping |
| VideoDriver.ReceiveStep | VideoDriver/video_driver.py:94-105 | a socket error changes nothing. A 1460-byte datagram only appends to the buffer. Any other length hands buffer+datagram to the decoder; the buffer is then empty if decoding succeeded, and the loop ends if it raised. Only `frame` of the driver can change |
| VideoDriver.ReceiveAll | VideoDriver/video_driver.py:93-105 | the receive loop over a datagram sequence: once the thread has ended nothing more happens, at most one buffer is handed per datagram, and a thread that ended stays ended; `ReassemblyConservesBytes`, `FrameReassembly` and `ReceptionTouchesOnlyFrame` state what it hands over and what it writes |
| VideoDriver.StepPublishesLastDecoded | VideoDriver/video_driver.py:99-102 | after a terminator that decodes, `frame` is the last decoded picture, or is unchanged if there were none. In every other case the driver is unchanged |
| VideoDriver.ReassemblyConservesBytes | VideoDriver/video_driver.py:93-105 | while the loop runs, the buffers handed to the decoder followed by the working buffer equal the starting buffer followed by every received payload |
| VideoDriver.FrameReassembly | VideoDriver/video_driver.py:93-102 | full-size datagrams (socket errors allowed in between) ended by one short datagram: the decoder gets the concatenation of all their payloads, exactly once, and the buffer is then empty |
| VideoDriver.ReceptionTouchesOnlyFrame | VideoDriver/video_driver.py:86-105 | over any datagram sequence, the receive loop leaves `initialized`, `frozen` and the snapshot unchanged |
| VideoDriver.FrozenReadIgnoresReception | VideoDriver/video_driver.py:73-105 | while frozen, nothing the receive loop decodes changes what `read` returns |
| HeightGuard.Create | HeightGuard/height_guard.py:6-13 | a new guard has the given floor, height 0, and its stop event clear |
| HeightGuard.Stop | HeightGuard/height_guard.py:26-28 | `stop` sets the stop event and changes no other field |
| HeightGuard.StopIdempotent | HeightGuard/height_guard.py:26-28 | stopping twice equals stopping once |
| HeightGuard.GuardStep | HeightGuard/height_guard.py:19-24 | an iteration always sends `connect` first and, unless that raised, `get_height` second. It records the reading only when both succeeded, and sends `move_up(20)` exactly when the reading is below the floor. Only these three commands are ever sent. An SDK exception ends the loop |
| HeightGuard.NoClimbAtOrAboveFloor | HeightGuard/height_guard.py:23-24 | a reading at or above the floor sends no corrective command |
| HeightGuard.StopDoesNotHaltRunningLoop | HeightGuard/height_guard.py:15-28 | an iteration after `stop` makes the same calls and goes on the same way as one before it |
| HeightGuard.StoppedGuardStillClimbs | HeightGuard/height_guard.py:15-28 | a default guard, once stopped, still climbs on a reading of 40 |
| HeightGuard.CheckedGuardStep | HeightGuard/height_guard.py:15-24 | the corrected step: a stopped guard makes no call and ends; an unstopped one does what `GuardStep` does |
| HeightGuard.CheckedStepHonoursStop | HeightGuard/height_guard.py:15-28 | with the corrected step, no reading makes a stopped guard climb; an unstopped guard below the floor still climbs |
| Console.MaskKey | poc-6.py:42 | the masked key is in 0..255 and congruent to the raw code modulo 256 |
| Console.NoKeyPressedMasksToNoKey | poc-6.py:42-46 | `waitKey`'s "no key" result -1 masks to 255, the code the producer skips |
| Console.Truncate | poc-6.py:70 | `int()` truncates toward zero |
| Console.ConfidencePercent | poc-6.py:70 | `int(confidence * 100)` is the whole percentage rounded toward zero |
| Console.Accepted | poc-6.py:70-72 | a detection passes `int(confidence*100) > 80` exactly when its confidence is at least 0.81. So exactly 80% is rejected |
| Console.FilterDetections | poc-6.py:69-74 | the queued tokens are exactly `(text, frame)` for the accepted detections, all carrying the frame read; there are never more tokens than detections |
| Console.FilterDetectionsAppend | poc-6.py:69-74 | filtering keeps detection order: filtering two batches one after the other equals filtering them together |
| Console.GrabFrame | poc-6.py:51-61 | recognition runs exactly when the driver is initialized, live and holding a frame. A frozen driver skips the iteration. An uninitialized driver, or a live one with no frame, raises |
| Session.Perform | poc-6.py:142-218 | one step makes exactly its own SDK call (none for non-call steps). It aborts exactly when it is a guarded call that raises, and crashes exactly when it freezes an uninitialized camera. A step that ends the handler changes nothing. Only a freeze touches the camera and only a session step touches the session |
| Session.Exec | poc-6.py:141-220 | a handler crashes only when the camera is uninitialized, never aborts when no call raises, and never changes the camera's `initialized` flag |
| Session.ExecKeepsCamera | poc-6.py:92-123 | a handler program without a freeze step leaves the camera as it was and never ends the thread |
| Session.ExecKeepsSession | poc-6.py:141-220 | a handler program without a session step leaves `has_taken_off`, the guard handle and the released guards as they were |
| Session.ExecCallsFollowProgram | poc-6.py:141-220 | the SDK calls a handler makes are a prefix of its program's calls, in order, and all of them when it completes |
| Session.ExecAbortsAtFault | poc-6.py:219-220 | a handler aborted by a `TelloException` made at least one call, and its last call is the one that raised |
| Session.StopAndClear | poc-6.py:166-171 | after `land`, stopping the guard and clearing the flag sends nothing: the guard is stopped and released, and the handle and the flag are cleared |
| Session.SingleCall | poc-6.py:219-220 | one guarded call reaches the drone and changes nothing. A raised `TelloException` aborts it; a call inside `except Exception: pass` always completes |
| Session.LandProgramEffect | poc-6.py:162-171 | landing sends `land`. If that raises, nothing changes. Otherwise the guard is stopped and released, and the guard handle and `has_taken_off` are both cleared |
| Poc6.KeyProgram | poc-6.py:142-218 | only `p` touches the camera; only `t` and `l` touch the flag or the guard |
| Poc6.HandleKey | poc-6.py:141-220 | only `p` can change the camera or end the thread; only `t` and `l` change the session; with no SDK failure nothing is aborted |
| Poc6.GroundedKeysDoNothing | poc-6.py:152-218 | on the ground, each of r f l e w s a d u i sends nothing and changes nothing |
| Poc6.UnhandledKeysDoNothing | poc-6.py:141-218 | keys outside the table send nothing and change nothing |
| Poc6.MotionKeysFollowTable | poc-6.py:152-218 | when airborne, r/f rotate by +90/-90, w/s/a/d move 30, u/i move up/down 20, and nothing else changes. The call is aborted only if it raises and the key is not one of w/s/a/d |
| Poc6.TakeoffKey | poc-6.py:148-151 | `t` is ungated and sends `takeoff`. If that raises, nothing changes. Otherwise the session becomes airborne with a new default guard, and any previous guard is released without being stopped |
| Poc6.DoubleTakeoffOrphansGuard | poc-6.py:148-151 | pressing `t` twice leaves the first guard released with its stop event never set |
| Poc6.LandKey | poc-6.py:162-171 | when airborne, `l` sends `land`. If that raises, nothing changes. Otherwise the guard is stopped and released, and the handle and the flag are cleared |
| Poc6.EmergencyKey | poc-6.py:172-176 | when airborne, `e` sends `emergency` only; the flag and the guard stay as they were |
| Poc6.QueryKeys | poc-6.py:144-147 | `h` and `b` send one query each and change nothing |
| Poc6.FreezeKeyToggles | poc-6.py:142-143 | `p` toggles the freeze, snapshotting when it freezes, and sends nothing. On an uninitialized camera it ends the thread and changes nothing |
| Poc6.MacroFor | poc-6.py:93-121 | only label B touches the camera; only label C touches the session |
| Poc6.HandleAction | poc-6.py:92-123 | labels other than B never change the camera or end the thread; labels other than C never change the session |
| Poc6.MacroAEffect | poc-6.py:92-99 | A sends rotate 360, sleeps 5, sends rotate 180, then forward 30, and changes nothing. A failing call (the first, second or third) ends the macro right after it, through the `TelloException` handler at lines 122-123 |
| Poc6.MacroBEffect | poc-6.py:100-111 | B sends rotate 180, then freezes, saves the token's frame, and unfreezes; the camera ends live, with the snapshot taken at the freeze. If the turn raises, the handler at lines 122-123 skips the freeze, the photo and the unfreeze, and nothing changes. On an uninitialized camera the freeze ends the thread after the turn, with nothing changed |
| Poc6.MacroCEffect | poc-6.py:112-119 | C lands exactly like `l`, but without the take-off gate |
| Poc6.OtherLabelsDoNothing | poc-6.py:120-121 | any other label sends nothing and changes nothing |
| Poc6.Drain | poc-6.py:86-123 | a consumer takes items in queue order. It stops early only when a handler crashed, which needs an uninitialized camera. The camera's `initialized` flag is never changed |
| Poc6.ConsumerOutlivesDroneErrors | poc-6.py:86-123 | with the camera initialized, the consumer handles every queued item whatever SDK calls fail |
| Poc6.TwoBTokensRunTwice | poc-6.py:86-111 | two queued B tokens run the B macro twice, in order: nothing suppresses the second |
| Poc6.DrainCons | poc-6.py:86-123 | a consumer whose first item does not end the thread handles that item, then the rest of the queue from where the first left the world |
| Poc6.InitialSessionValid | poc-6.py:17-18 | the consumers start with no guard and the flag clear, so a guard is held exactly while the flag is set |
| Poc6.HandleKeyKeepsSessionValid | poc-6.py:141-220 | every key handler, whatever call raises, keeps "a guard is held exactly while `has_taken_off` is set": `t` sets both, `l` clears both, the rest touch neither |
| Poc6.HandleActionKeepsSessionValid | poc-6.py:92-123 | every macro, whatever call raises, keeps the same invariant: `C` clears both, the rest touch neither |
| Poc6.DrainKeepsSessionValid | poc-6.py:86-123 | a consumer working through any queue of key and detection items keeps the invariant |
| Poc6.EnqueuedKey | poc-6.py:42-46 | the sampled key is queued exactly when its masked code is not 255 |
| Poc6.MainIteration | poc-6.py:41-74 | the key is queued before anything else. `q` quits with no tokens. The loop crashes exactly when the grab crashes. Tokens are the filtered detections of the grabbed frame, and there are none without a grabbed frame |
| Poc6.KeysOfNeverNoKey | poc-6.py:41-46 | the key queue only ever holds codes 0..254 |
| Poc6.KeysOfAppend | poc-6.py:41-46 | keys are queued in arrival order: the queue for two stretches of iterations is the first's keys followed by the second's |
| Poc6.RunMain | poc-6.py:41-74 | the loop runs iterations until one quits or crashes. The key queue and the action queue then hold exactly the keys and tokens of the iterations that ran |
| Poc5.ReactionsFor | poc-5.py:115-124 | one log line per token, matching its label |
| Poc5.KeyPart | poc-5.py:28-91 | the key chain makes at most one SDK call, and only the table command of its key, always when the key is not refused on the ground. Only `p` touches the camera, and only a `takeoff` that did not raise sets the flag. `q` alone quits. The rest of the iteration is skipped exactly for a refused key or a raising move. The program ends exactly on freezing an uninitialized camera or on any other raising call |
| Poc5.Step | poc-5.py:27-124 | the calls, flag and camera after an iteration depend only on the key part, and at most one SDK call is made. If the key part goes on to the frame read and the read yields a frame, exactly one log line is written per accepted detection, in order. Otherwise nothing is logged |
| Poc5.TakeoffSetsFlag | poc-5.py:37-39 | `t` sends `takeoff` and sets the flag, with no guard. A raising `takeoff` ends the program with the flag unchanged |
| Poc5.GroundedKeysSkipIteration | poc-5.py:40-91 | on the ground, r f l e w s a d send nothing, change nothing and skip the rest of the iteration |
| Poc5.KeysFollowTable | poc-5.py:33-91 | when airborne, every calling key sends its one table command |
| Poc5.LandKeepsFlag | poc-5.py:50-54 | `l` sends `land` but leaves `has_taken_off` set |
| Poc5.MoveErrorSkipsIteration | poc-5.py:60-91 | a failing move is swallowed: the loop continues, the flag is unchanged, and the rest of the iteration is skipped |
| Poc5.OtherErrorsEndProgram | poc-5.py:33-59 | a raising query, takeoff, rotate, land or emergency is not caught and ends the program |
| Poc5.UnhandledKeysOnlyReadFrame | poc-5.py:28-101 | other keys (`u` and `i` among them) send nothing and go on to the frame read |
| Poc5.DetectionsIssueNoCommands | poc-5.py:112-124 | recognition results never change the calls, the flag, the camera or the loop decision |
| Poc5.OneLogLinePerAcceptedDetection | poc-5.py:112-124 | with a live frame and no key, exactly one log line is written per accepted detection, in order, and no call is made |

## Behaviour of the code worth knowing

- `read` has no separate "no frame" status. Before anything is decoded it
  returns status 1 with no frame, and the main loop then fails on
  `frame.shape` (`Console.GrabFrame`).
- Nothing marks a macro as in progress and nothing drops stale tokens.
  Every queued token runs its macro (`Poc6.TwoBTokensRunTwice`).
- `e` sends `emergency` and clears neither `has_taken_off` nor the guard.
  Only `l` and macro C clear them (`Poc6.EmergencyKey`).
- A second `t` replaces the guard handle without stopping the old guard
  (`Poc6.DoubleTakeoffOrphansGuard`).
- The callers use `camera.set_freeze`, but `VideoDriver` defines only
  `video_freeze`. The model takes `set_freeze(b)` to mean `video_freeze(b)`.
  `video_freeze` raises a plain `Exception` on an uninitialized driver. No
  poc-6 handler catches that, so the model ends the thread
  (`Session.Perform`, status `Crashed`).

## Left out

- Threads, `queue.Queue`, `threading.Event` and daemon loops: each consumer is a fold over an explicit queue, and each producer is a fold over explicit iterations. The code has no locking to verify.
- Poc6.DrainKeepsSessionValid: the session invariant is proved only for handlers that run one after another, because handlers are modelled as atomic. The two consumer threads share `has_taken_off` and `height_guard` without a lock, so an overlap can break it. For example, `C` clears the guard (poc-6.py:118), then `t` sets a new guard and the flag (poc-6.py:150-151), then `C` clears the flag (poc-6.py:119). That leaves a running guard with the flag cleared.
- UDP socket creation, bind and close (`__del__`): I/O. `recvfrom(2048)` is modelled only by its result, the received bytes or a `socket.error`.
- The heartbeat thread `_sendingCommand`: it is created but never started.
- The H.264 decoder: it is a function of the buffer handed to it. The real decoder keeps state between calls, and that state is not modelled.
- `np.fromstring` details and numpy's `-1` (inferred) dimensions: the decoder's width, height and line size are taken as natural numbers.
- EasyOCR inference, `cv2.resize`, `cvtColor`, `imshow` and `destroyAllWindows`: foreign libraries. Recognition results are an input, and exceptions these libraries raise are not modelled. For example, `cv2.resize` raises on a frame so small that the scaled size is 0 (poc-6.py:61-65). Poc6.MainIteration therefore treats every grabbed frame as reaching recognition.
- `cv2.imwrite`: recorded only as a `Saved` event; the timestamp file name is not modelled.
- Float arithmetic: the confidence is an exact real. Binary rounding of `confidence * 100` (for example 0.29 × 100 = 28.999…) is not modelled.
- `time.sleep`: kept only as the `Slept(5)` event of macro A.
- djitellopy transport: commands are data, and which call raises is an input.
- The main loops' `camera.platform` check (poc-6.py:38, poc-5.py:24): `VideoDriver` defines no `platform` attribute, so as written the lookup raises `AttributeError`. Only `KeyboardInterrupt` is caught at the top level, so neither `main` reaches its `while True` loop. The model assumes the lookup succeeds, as it does for `set_freeze`, and models the loop from there. The check itself only chooses a display scale.
- `camera.release`: `VideoDriver` has no `release`. It runs only at exit.
- The `camera is None or drone is None` and `isinstance` checks in `thread__wait_key`: they always pass once `main` has set both globals before starting the thread.
- The `ret == 2` branch of both main loops: it is unreachable, because `read` returns only 0 or 1.
- Console `print` output: left out, except the per-label log lines of poc-5's detection branch.
- The height-guard loop as a whole: only one iteration is modelled, because the loop samples its stop event once and never re-reads it.
- poc-4.py, poc-2.py and main.py: display and OCR loops with no decision logic beyond a `p`/`q` toggle.

## Findings

| source | as written | input that shows it | evidently intended | confidence | as-written member | corrected member |
|---|---|---|---|---|---|---|
| HeightGuard/height_guard.py:17-18 | the stop event is read once, before the loop starts, so `stop()` never ends a running loop | create a guard, call `stop()`, then read a height of 40 with floor 100: `move_up(20)` is still sent | the loop checks the stop event before every iteration and exits once it is set | high; not executed | HeightGuard.StoppedGuardStillClimbs | HeightGuard.CheckedStepHonoursStop |

=== FILE: common.dfy ===
/** Small shared vocabulary: optional values, results, bytes and
    sequence flattening. */
module Common {

  /** A value that may be missing (Python's `None`). */
  datatype Option<+T> = None | Some(value: T)

  /** The outcome of an operation that may raise instead of returning. */
  datatype Result<+T, +E> = Ok(value: T) | Err(error: E)

  /** One octet of a datagram or of decoded pixel data. */
  type byte = bv8

  function Min(a: int, b: int): int
  {
    if a <= b then a else b
  }

  /** The value of an option as a list of zero or one elements. */
  function OptionToSeq<T>(o: Option<T>): seq<T>
  {
    if o.Some? then [o.value] else []
  }

  lemma SeqAssoc<T>(a: seq<T>, b: seq<T>, c: seq<T>)
    ensures (a + b) + c == a + (b + c)
  {
  }

  /** The concatenation of a sequence of chunks, in order. */
  function Flatten<T>(chunks: seq<seq<T>>): seq<T>
  {
    if |chunks| == 0 then [] else chunks[0] + Flatten(chunks[1..])
  }

  /** Flattening distributes over concatenation of the chunk lists. */
  lemma {:induction false} FlattenAppend<T>(a: seq<seq<T>>, b: seq<seq<T>>)
    ensures Flatten(a + b) == Flatten(a) + Flatten(b)
  {
    if |a| == 0 {
      assert a + b == b;
    } else {
      assert (a + b)[1..] == a[1..] + b;
      FlattenAppend(a[1..], b);
    }
  }
}

=== FILE: console.dfy ===
/** The operator-console side shared by the `poc-5.py` and `poc-6.py` main
    loops: key codes as `cv2.waitKey` reports them, the confidence filter on
    recognition results, and grabbing a frame from the driver for
    recognition. The recognition engine and the display are not modelled:
    detections arrive as an input sequence. */
module Console {
  import opened Common
  import VD = VideoDriver

  /** `cv2.waitKey(1) & 0xFF`. `waitKey` returns -1 when no key was pressed.
      Python's `&` with 0xFF and Dafny's `%` by 256 agree on every integer,
      negative ones included. */
  function MaskKey(raw: int): (k: int)
    ensures 0 <= k < 256
    ensures (raw - k) % 256 == 0
  {
    raw % 256
  }

  /** The masked code of "no key pressed". */
  const NoKey: int := 255

  lemma NoKeyPressedMasksToNoKey()
    ensures MaskKey(-1) == NoKey
  {
  }

  /** Key codes the scripts react to. */
  const KeyQ: int := 'q' as int
  const KeyP: int := 'p' as int
  const KeyH: int := 'h' as int
  const KeyB: int := 'b' as int
  const KeyT: int := 't' as int
  const KeyR: int := 'r' as int
  const KeyF: int := 'f' as int
  const KeyL: int := 'l' as int
  const KeyE: int := 'e' as int
  const KeyW: int := 'w' as int
  const KeyS: int := 's' as int
  const KeyA: int := 'a' as int
  const KeyD: int := 'd' as int
  const KeyU: int := 'u' as int
  const KeyI: int := 'i' as int

  /** How a main-loop iteration ends: on to the next iteration, out of the
      loop on `q`, or out of the program on an exception. */
  datatype Next = Continue | Quit | Crash

  /** One recognition result: the text read and the engine's confidence in
      [0, 1], as an exact real number. */
  datatype Detection = Detection(text: string, confidence: real)

  /** Python's `int(x)`: truncation toward zero. */
  function Truncate(x: real): (n: int)
    ensures x >= 0.0 ==> n as real <= x < n as real + 1.0
    ensures x < 0.0 ==> n as real - 1.0 < x <= n as real
  {
    if x >= 0.0 then x.Floor else -((-x).Floor)
  }

  /** `int(confidence * 100)`: the confidence as a whole percentage,
      rounded toward zero. */
  function ConfidencePercent(confidence: real): (p: int)
    ensures confidence >= 0.0 ==> p as real <= confidence * 100.0 < p as real + 1.0
    ensures confidence < 0.0 ==> p as real - 1.0 < confidence * 100.0 <= p as real
  {
    Truncate(confidence * 100.0)
  }

  /** The filter `conf_pct > 80`. After truncation the threshold is 81%: a
      detection is accepted exactly when its confidence is at least 0.81, so
      exactly 80% is rejected. */
  predicate Accepted(confidence: real): (ok: bool)
    ensures ok <==> confidence >= 0.81
  {
    ConfidencePercent(confidence) > 80
  }

  /** A detection queued for the dispatcher: its text and the frame it was
      read from (`(text, frame.copy())`). */
  datatype Token = Token(text: string, frame: VD.Image)

  /** The tokens the main loop queues for one frame's detections: one per
      accepted detection, in detection order. */
  function FilterDetections(ds: seq<Detection>, frame: VD.Image): (ts: seq<Token>)
    ensures |ts| <= |ds|
    ensures forall i :: 0 <= i < |ts| ==> ts[i].frame == frame
    ensures forall t :: t in ts <==> exists d :: d in ds && Accepted(d.confidence) && t == Token(d.text, frame)
  {
    if |ds| == 0 then []
    else
      var rest := FilterDetections(ds[1..], frame);
      assert forall d :: d in ds[1..] ==> d in ds;
      if Accepted(ds[0].confidence) then [Token(ds[0].text, frame)] + rest else rest
  }

  /** Filtering detection by detection gives the same queue as filtering a
      whole batch: the filter keeps arrival order. */
  lemma {:induction false} FilterDetectionsAppend(a: seq<Detection>, b: seq<Detection>, frame: VD.Image)
    ensures FilterDetections(a + b, frame) == FilterDetections(a, frame) + FilterDetections(b, frame)
  {
    if |a| > 0 {
      assert (a + b)[1..] == a[1..] + b;
      assert (a + b)[0] == a[0];
      FilterDetectionsAppend(a[1..], b, frame);
    } else {
      assert a + b == b;
    }
  }

  /** What the main loop gets from `camera.read()` before recognition. */
  datatype Grab =
    | Grabbed(frame: VD.Image)  // status 1 with a frame: go on to recognition
    | Skipped                   // status 0 (frozen): "Failed to grab frame.", next iteration
    | GrabCrash                 // an exception ends the main loop

  /** `ret, frame = camera.read()` followed by `if not ret: continue` and the
      first use of `frame.shape`: reading an uninitialized driver raises, and
      a live read with no decoded frame fails on `None.shape`. */
  function GrabFrame(d: VD.Driver): (g: Grab)
    ensures g.Grabbed? <==> d.initialized && !d.frozen && d.frame.Some?
    ensures g.Grabbed? ==> d.frame == Some(g.frame)
    ensures g.Skipped? <==> d.initialized && d.frozen
  {
    match VD.Read(d)
    case Err(_) => GrabCrash
    case Ok(reading) =>
      if reading.status == 0 then Skipped
      else if reading.frame.None? then GrabCrash
      else Grabbed(reading.frame.value)
  }
}

=== FILE: height_guard.dfy ===
/** `HeightGuard/height_guard.py`: a background loop that keeps the drone
    above a height floor. The thread is not modelled; one iteration of its
    loop is a pure step from the guard's fields and one height reading to the
    SDK calls it makes. */
module HeightGuard {
  import opened Common
  import opened Tello

  /** The floor used when none is given. */
  const DefaultLimit: int := 100

  /** How far one corrective command climbs, in centimetres. */
  const Climb: int := 20

  /** The fields of a guard object; `stopRequested` is its stop event. */
  datatype Guard = Guard(limit: int, currentHeight: int, stopRequested: bool)

  /** A freshly constructed guard (whose loop starts at once). */
  function Create(limit: int): (g: Guard)
    ensures g.limit == limit && g.currentHeight == 0 && !g.stopRequested
  {
    Guard(limit, 0, false)
  }

  /** `stop`: sets the stop event and nothing else. */
  function Stop(g: Guard): (r: Guard)
    ensures r.stopRequested
    ensures r.(stopRequested := g.stopRequested) == g
  {
    g.(stopRequested := true)
  }

  /** Stopping twice is the same as stopping once. */
  lemma StopIdempotent(g: Guard)
    ensures Stop(Stop(g)) == Stop(g)
  {
  }

  /** One pass of the loop: the guard after it, the calls made, and whether
      the loop goes on (an SDK exception is not caught and ends the thread). */
  datatype Iteration = Iteration(guard: Guard, calls: seq<Command>, alive: bool)

  /** One iteration of `_maintain_height` as written: `connect`, read the
      height, record it, and climb when below the floor. The stop event is
      not consulted: the loop sampled it once, before the first iteration. */
  function GuardStep(g: Guard, reading: int, fault: Fault): (it: Iteration)
    ensures it.guard == g || it.guard == g.(currentHeight := reading)
    ensures !Raises(fault, 0) && !Raises(fault, 1) ==> it.guard == g.(currentHeight := reading)
    ensures !Raises(fault, 0) && !Raises(fault, 1) ==>
      (MoveUp(Climb) in it.calls <==> reading < g.limit)
    ensures it.alive <==> fault.None? || fault.value > 2 || (fault.value == 2 && reading >= g.limit)
    ensures forall c :: c in it.calls ==> c in [Connect, GetHeight, MoveUp(Climb)]
    ensures 1 <= |it.calls| <= 3 && it.calls[0] == Connect
    ensures Raises(fault, 0) ==> it.calls == [Connect]
    ensures !Raises(fault, 0) ==> |it.calls| >= 2 && it.calls[1] == GetHeight
    ensures Raises(fault, 0) || Raises(fault, 1) ==> it.guard == g
  {
    if Raises(fault, 0) then Iteration(g, [Connect], false)
    else if Raises(fault, 1) then Iteration(g, [Connect, GetHeight], false)
    else
      var g' := g.(currentHeight := reading);
      if reading < g.limit then Iteration(g', [Connect, GetHeight, MoveUp(Climb)], !Raises(fault, 2))
      else Iteration(g', [Connect, GetHeight], true)
  }

  /** A reading at or above the floor never triggers a corrective climb. */
  lemma NoClimbAtOrAboveFloor(g: Guard, reading: int, fault: Fault)
    requires reading >= g.limit
    ensures GuardStep(g, reading, fault).calls <= [Connect, GetHeight]
    ensures MoveUp(Climb) !in GuardStep(g, reading, fault).calls
  {
  }

  /** Calling `stop` does not change what a running loop does: an iteration
      after `stop` issues exactly the calls it would have issued before. */
  lemma StopDoesNotHaltRunningLoop(g: Guard, reading: int, fault: Fault)
    ensures GuardStep(Stop(g), reading, fault).calls == GuardStep(g, reading, fault).calls
    ensures GuardStep(Stop(g), reading, fault).alive == GuardStep(g, reading, fault).alive
  {
  }

  /** Concretely: a guard created with the default floor, then stopped, still
      climbs on a reading of 40. */
  lemma StoppedGuardStillClimbs()
    ensures MoveUp(Climb) in GuardStep(Stop(Create(DefaultLimit)), 40, None).calls
  {
  }

  /** The loop as evidently intended: the stop event is checked before every
      iteration, and a stopped guard makes no call and ends. */
  function CheckedGuardStep(g: Guard, reading: int, fault: Fault): (it: Iteration)
    ensures g.stopRequested ==> it == Iteration(g, [], false)
    ensures !g.stopRequested ==> it == GuardStep(g, reading, fault)
  {
    if g.stopRequested then Iteration(g, [], false) else GuardStep(g, reading, fault)
  }

  /** With the check in place, no reading makes a stopped guard climb, and an
      unstopped guard behaves exactly as before. */
  lemma CheckedStepHonoursStop(g: Guard, reading: int, fault: Fault)
    ensures MoveUp(Climb) !in CheckedGuardStep(Stop(g), reading, fault).calls
    ensures !CheckedGuardStep(Stop(g), reading, fault).alive
    ensures !g.stopRequested && reading < g.limit && fault.None? ==>
      MoveUp(Climb) in CheckedGuardStep(g, reading, fault).calls
  {
  }
}

=== FILE: poc5.dfy ===
/** `poc-5.py`: the earlier, single-threaded script. One iteration of its
    main loop handles the sampled key inline (no height guard, `l` does not
    clear the flag, most SDK exceptions are not caught at all) and then, if
    the iteration was not cut short, only logs a line per accepted
    detection. */
module Poc5 {
  import opened Common
  import opened Tello
  import opened Console
  import VD = VideoDriver

  /** Keys refused with "error: Take off first." while on the ground. */
  const GatedKeys: set<int> := {KeyR, KeyF, KeyL, KeyE, KeyW, KeyS, KeyA, KeyD}

  /** Keys whose move sits in `try: ... except Exception: continue`. */
  const MoveKeys: set<int> := {KeyW, KeyS, KeyA, KeyD}

  /** Every key the loop reacts to. */
  const HandledKeys: set<int> := GatedKeys + {KeyP, KeyQ, KeyH, KeyB, KeyT}

  /** The single SDK call each calling key makes. */
  const KeyCommand: map<int, Command> := map[
    KeyH := GetHeight, KeyB := GetBattery, KeyT := Takeoff,
    KeyR := RotateClockwise(90), KeyF := RotateClockwise(-90), KeyL := Land, KeyE := Emergency,
    KeyW := MoveForward(30), KeyS := MoveBack(30), KeyA := MoveLeft(30), KeyD := MoveRight(30)]

  /** The log line printed for an accepted detection. */
  datatype Reaction = ActionA | ActionB | ActionC | NoAction

  function ReactionFor(text: string): Reaction
  {
    if text == "A" then ActionA
    else if text == "B" then ActionB
    else if text == "C" then ActionC
    else NoAction
  }

  /** Where the key part of an iteration leaves the loop body. */
  datatype KeyNext = ToFrame | SkipRest | QuitLoop | CrashLoop

  datatype KeyStage = KeyStage(hasTakenOff: bool, camera: VD.Driver, calls: seq<Command>, next: KeyNext)

  /** The key `if`/`elif` chain of the loop body; `raises` says whether the
      SDK call the key makes raises. */
  function KeyPart(hasTakenOff: bool, camera: VD.Driver, key: int, raises: bool): (ks: KeyStage)
    ensures |ks.calls| <= 1
    ensures ks.calls != [] ==> key in KeyCommand && ks.calls == [KeyCommand[key]]
    ensures key in KeyCommand && (hasTakenOff || key !in GatedKeys) ==> ks.calls == [KeyCommand[key]]
    ensures key != KeyP ==> ks.camera == camera
    ensures ks.hasTakenOff != hasTakenOff ==> key == KeyT && !raises && ks.hasTakenOff
    ensures ks.next == QuitLoop <==> key == KeyQ
    ensures ks.next == SkipRest <==> (key in GatedKeys && !hasTakenOff) || (key in MoveKeys && raises && hasTakenOff)
    ensures ks.next == CrashLoop <==>
      || (key == KeyP && !camera.initialized)
      || (raises && key in KeyCommand && key !in MoveKeys && (hasTakenOff || key !in GatedKeys))
  {
    if key == KeyP then
      match VD.VideoFreeze(camera, !camera.frozen)
      case Err(_) => KeyStage(hasTakenOff, camera, [], CrashLoop)
      case Ok(d) => KeyStage(hasTakenOff, d, [], ToFrame)
    else if key == KeyQ then KeyStage(hasTakenOff, camera, [], QuitLoop)
    else if key == KeyH then KeyStage(hasTakenOff, camera, [GetHeight], if raises then CrashLoop else ToFrame)
    else if key == KeyB then KeyStage(hasTakenOff, camera, [GetBattery], if raises then CrashLoop else ToFrame)
    else if key == KeyT then
      if raises then KeyStage(hasTakenOff, camera, [Takeoff], CrashLoop)
      else KeyStage(true, camera, [Takeoff], ToFrame)
    else if key in GatedKeys && !hasTakenOff then KeyStage(hasTakenOff, camera, [], SkipRest)
    else if key == KeyR then KeyStage(hasTakenOff, camera, [RotateClockwise(90)], if raises then CrashLoop else ToFrame)
    else if key == KeyF then KeyStage(hasTakenOff, camera, [RotateClockwise(-90)], if raises then CrashLoop else ToFrame)
    else if key == KeyL then KeyStage(hasTakenOff, camera, [Land], if raises then CrashLoop else ToFrame)
    else if key == KeyE then KeyStage(hasTakenOff, camera, [Emergency], if raises then CrashLoop else ToFrame)
    else if key == KeyW then KeyStage(hasTakenOff, camera, [MoveForward(30)], if raises then SkipRest else ToFrame)
    else if key == KeyS then KeyStage(hasTakenOff, camera, [MoveBack(30)], if raises then SkipRest else ToFrame)
    else if key == KeyA then KeyStage(hasTakenOff, camera, [MoveLeft(30)], if raises then SkipRest else ToFrame)
    else if key == KeyD then KeyStage(hasTakenOff, camera, [MoveRight(30)], if raises then SkipRest else ToFrame)
    else KeyStage(hasTakenOff, camera, [], ToFrame)
  }

  /** One iteration: the flag and camera after it, the SDK calls made, the
      detection log lines, and how the loop goes on. */
  datatype Iteration = Iteration(
    hasTakenOff: bool, camera: VD.Driver, calls: seq<Command>, reactions: seq<Reaction>, next: Next)

  function ReactionsFor(ts: seq<Token>): (rs: seq<Reaction>)
    ensures |rs| == |ts|
    ensures forall i :: 0 <= i < |ts| ==> rs[i] == ReactionFor(ts[i].text)
  {
    if |ts| == 0 then [] else [ReactionFor(ts[0].text)] + ReactionsFor(ts[1..])
  }

  /** One iteration of `main`'s loop. */
  function Step(hasTakenOff: bool, camera: VD.Driver, raw: int, raises: bool, ds: seq<Detection>): (it: Iteration)
    ensures it.calls == KeyPart(hasTakenOff, camera, MaskKey(raw), raises).calls
    ensures it.hasTakenOff == KeyPart(hasTakenOff, camera, MaskKey(raw), raises).hasTakenOff
    ensures it.camera == KeyPart(hasTakenOff, camera, MaskKey(raw), raises).camera
    ensures |it.calls| <= 1
    ensures it.reactions != [] ==> GrabFrame(it.camera).Grabbed?
    ensures var ks := KeyPart(hasTakenOff, camera, MaskKey(raw), raises);
      if ks.next == ToFrame && GrabFrame(ks.camera).Grabbed?
      then it.reactions == ReactionsFor(FilterDetections(ds, ks.camera.frame.value))
      else it.reactions == []
  {
    var ks := KeyPart(hasTakenOff, camera, MaskKey(raw), raises);
    match ks.next
    case QuitLoop => Iteration(ks.hasTakenOff, ks.camera, ks.calls, [], Quit)
    case CrashLoop => Iteration(ks.hasTakenOff, ks.camera, ks.calls, [], Crash)
    case SkipRest => Iteration(ks.hasTakenOff, ks.camera, ks.calls, [], Continue)
    case ToFrame =>
      match GrabFrame(ks.camera)
      case GrabCrash => Iteration(ks.hasTakenOff, ks.camera, ks.calls, [], Crash)
      case Skipped => Iteration(ks.hasTakenOff, ks.camera, ks.calls, [], Continue)
      case Grabbed(frame) =>
        Iteration(ks.hasTakenOff, ks.camera, ks.calls, ReactionsFor(FilterDetections(ds, frame)), Continue)
  }

  /** `t` sends `takeoff` and, unless it raised, sets the flag; there is no
      guard. A raising `takeoff` is not caught and ends the program. */
  lemma TakeoffSetsFlag(hasTakenOff: bool, camera: VD.Driver, raw: int, raises: bool, ds: seq<Detection>)
    requires MaskKey(raw) == KeyT
    ensures var it := Step(hasTakenOff, camera, raw, raises, ds);
      && it.calls == [Takeoff]
      && it.camera == camera
      && (!raises ==> it.hasTakenOff)
      && (raises ==> it.hasTakenOff == hasTakenOff && it.next == Crash)
  {
  }

  /** On the ground every gated key makes no call, changes nothing, and skips
      the rest of the iteration, detections included. */
  lemma GroundedKeysSkipIteration(camera: VD.Driver, raw: int, raises: bool, ds: seq<Detection>)
    requires MaskKey(raw) in GatedKeys
    ensures Step(false, camera, raw, raises, ds) == Iteration(false, camera, [], [], Continue)
  {
  }

  /** Airborne, each calling key sends its one table command. */
  lemma KeysFollowTable(camera: VD.Driver, raw: int, raises: bool, ds: seq<Detection>)
    requires MaskKey(raw) in KeyCommand
    ensures Step(true, camera, raw, raises, ds).calls == [KeyCommand[MaskKey(raw)]]
  {
  }

  /** `l` lands but leaves `has_taken_off` set. */
  lemma LandKeepsFlag(camera: VD.Driver, raw: int, raises: bool, ds: seq<Detection>)
    requires MaskKey(raw) == KeyL
    ensures Step(true, camera, raw, raises, ds).calls == [Land]
    ensures Step(true, camera, raw, raises, ds).hasTakenOff
  {
  }

  /** A failing move is swallowed: the loop goes on, the flag is unchanged,
      and the rest of the iteration (frame and detections) is skipped. */
  lemma MoveErrorSkipsIteration(camera: VD.Driver, raw: int, ds: seq<Detection>)
    requires MaskKey(raw) in MoveKeys
    ensures var it := Step(true, camera, raw, true, ds);
      it.hasTakenOff && it.next == Continue && it.reactions == [] && it.camera == camera
  {
  }

  /** Any other SDK exception is not caught: the program ends. */
  lemma OtherErrorsEndProgram(camera: VD.Driver, raw: int, ds: seq<Detection>)
    requires MaskKey(raw) in {KeyH, KeyB, KeyT, KeyR, KeyF, KeyL, KeyE}
    ensures Step(true, camera, raw, true, ds).next == Crash
  {
  }

  /** Keys outside the table (`u` and `i` among them) make no call and leave
      the iteration to the frame part. */
  lemma UnhandledKeysOnlyReadFrame(hasTakenOff: bool, camera: VD.Driver, raw: int, raises: bool, ds: seq<Detection>)
    requires MaskKey(raw) !in HandledKeys
    ensures var it := Step(hasTakenOff, camera, raw, raises, ds);
      && it.calls == [] && it.hasTakenOff == hasTakenOff && it.camera == camera
      && (it.next == Crash <==> GrabFrame(camera).GrabCrash?)
  {
  }

  /** Detections never steer the drone: whatever recognition reports, the
      iteration makes the same calls and reaches the same flag, camera and
      loop decision. */
  lemma DetectionsIssueNoCommands(hasTakenOff: bool, camera: VD.Driver, raw: int, raises: bool,
                                  ds1: seq<Detection>, ds2: seq<Detection>)
    ensures var it1 := Step(hasTakenOff, camera, raw, raises, ds1);
      var it2 := Step(hasTakenOff, camera, raw, raises, ds2);
      it1.calls == it2.calls && it1.hasTakenOff == it2.hasTakenOff &&
      it1.camera == it2.camera && it1.next == it2.next
  {
  }

  /** With a live frame and no key, the iteration logs exactly one line per
      accepted detection, in order, and nothing for the others. */
  lemma OneLogLinePerAcceptedDetection(hasTakenOff: bool, camera: VD.Driver, ds: seq<Detection>)
    requires GrabFrame(camera).Grabbed?
    ensures var it := Step(hasTakenOff, camera, -1, false, ds);
      var ts := FilterDetections(ds, camera.frame.value);
      && it.calls == []
      && it.reactions == ReactionsFor(ts)
      && |it.reactions| <= |ds|
  {
    assert MaskKey(-1) == NoKey;
  }
}

=== FILE: poc6.dfy ===
/** `poc-6.py`: the main loop's key and detection producers, the key
    consumer `thread__wait_key`, and the detection consumer
    `thread__handle_actions`. Queues and threads are not modelled: each
    consumer is a fold of its handler over the items in its queue, and each
    producer is a fold of one main-loop iteration over its inputs. */
module Poc6 {
  import opened Common
  import opened Tello
  import opened Console
  import opened Session
  import VD = VideoDriver
  import HG = HeightGuard

  /** Keys that print "error: Take off first." and do nothing on the ground. */
  const GatedKeys: set<int> := {KeyR, KeyF, KeyL, KeyE, KeyW, KeyS, KeyA, KeyD, KeyU, KeyI}

  /** Every key the consumer reacts to. */
  const HandledKeys: set<int> := GatedKeys + {KeyP, KeyH, KeyB, KeyT}

  /** The fixed motion table: the single command each motion key sends. */
  const MotionTable: map<int, Command> := map[
    KeyR := RotateClockwise(90), KeyF := RotateClockwise(-90),
    KeyW := MoveForward(30), KeyS := MoveBack(30), KeyA := MoveLeft(30), KeyD := MoveRight(30),
    KeyU := MoveUp(20), KeyI := MoveDown(20)]

  /** Motion keys whose command sits in its own `try: ... except Exception: pass`. */
  const SwallowingKeys: set<int> := {KeyW, KeyS, KeyA, KeyD}

  /** `t`: take off, then replace the guard, then set the flag. */
  const TakeoffProgram: seq<Instr> := [Call(Takeoff), StartGuard(HG.DefaultLimit), SetTakenOff(true)]

  // ---------------------------------------------------------------------
  // thread__wait_key
  // ---------------------------------------------------------------------

  /** The body of `thread__wait_key` for one key, as a program. */
  function KeyProgram(w: World, key: int): (prog: seq<Instr>)
    ensures key != KeyP ==> !HasFreeze(prog)
    ensures key != KeyT && key != KeyL ==> !TouchesSession(prog)
  {
    if key == KeyP then [SetFreeze(!w.camera.frozen)]
    else if key == KeyH then [Call(GetHeight)]
    else if key == KeyB then [Call(GetBattery)]
    else if key == KeyT then TakeoffProgram
    else if key in GatedKeys && !w.session.hasTakenOff then []
    else if key == KeyR then [Call(RotateClockwise(90))]
    else if key == KeyF then [Call(RotateClockwise(-90))]
    else if key == KeyL then LandProgram
    else if key == KeyE then [Call(Emergency)]
    else if key == KeyW then [TryCall(MoveForward(30))]
    else if key == KeyS then [TryCall(MoveBack(30))]
    else if key == KeyA then [TryCall(MoveLeft(30))]
    else if key == KeyD then [TryCall(MoveRight(30))]
    else if key == KeyU then [Call(MoveUp(20))]
    else if key == KeyI then [Call(MoveDown(20))]
    else []
  }

  /** One key taken from the key queue and handled. */
  function HandleKey(w: World, key: int, fault: Fault): (o: Outcome)
    ensures key != KeyP ==> o.world.camera == w.camera && o.status != Crashed
    ensures key != KeyT && key != KeyL ==> o.world.session == w.session && o.world.released == w.released
    ensures fault.None? ==> o.status != Aborted
  {
    var prog := KeyProgram(w, key);
    if key == KeyP then ExecKeepsSession(w, prog, fault, 0); Exec(w, prog, fault, 0)
    else if key == KeyT || key == KeyL then ExecKeepsCamera(w, prog, fault, 0); Exec(w, prog, fault, 0)
    else ExecKeepsCamera(w, prog, fault, 0); ExecKeepsSession(w, prog, fault, 0); Exec(w, prog, fault, 0)
  }

  /** On the ground every gated key is refused: no call, no change. */
  lemma GroundedKeysDoNothing(w: World, key: int, fault: Fault)
    requires key in GatedKeys && !w.session.hasTakenOff
    ensures HandleKey(w, key, fault) == Outcome(w, [], Completed)
  {
  }

  /** Keys outside the table are ignored. */
  lemma UnhandledKeysDoNothing(w: World, key: int, fault: Fault)
    requires key !in HandledKeys
    ensures HandleKey(w, key, fault) == Outcome(w, [], Completed)
  {
  }

  /** Airborne, each motion key sends exactly its table entry and changes no
      state; a failure is swallowed for w/s/a/d and reported for the rest. */
  lemma MotionKeysFollowTable(w: World, key: int, fault: Fault)
    requires key in MotionTable && w.session.hasTakenOff
    ensures var o := HandleKey(w, key, fault);
      && o.world == w
      && o.trace == [Sdk(MotionTable[key])]
      && (o.status == Aborted <==> key !in SwallowingKeys && Raises(fault, 0))
      && o.status != Crashed
  {
    var prog := KeyProgram(w, key);
    assert prog == (if key in SwallowingKeys then [TryCall(MotionTable[key])] else [Call(MotionTable[key])]);
    SingleCall(w, MotionTable[key], fault);
  }

  /** `t` is not gated. It sends `takeoff`; if that raises nothing changes,
      otherwise the session is airborne with a new guard, and a guard that
      was already there is dropped without being stopped. */
  lemma TakeoffKey(w: World, fault: Fault)
    ensures var o := HandleKey(w, KeyT, fault);
      && o.trace == [Sdk(Takeoff)]
      && (Raises(fault, 0) ==> o.world == w && o.status == Aborted)
      && (!Raises(fault, 0) ==>
            && o.status == Completed
            && o.world.camera == w.camera
            && o.world.session == State(true, Some(HG.Create(HG.DefaultLimit)))
            && o.world.released == w.released + OptionToSeq(w.session.guard))
  {
    var prog := KeyProgram(w, KeyT);
    assert prog == TakeoffProgram;
    if !Raises(fault, 0) {
      var w1 := w.(session := w.session.(guard := Some(HG.Create(HG.DefaultLimit))),
                   released := w.released + OptionToSeq(w.session.guard));
      assert prog[1..] == [StartGuard(HG.DefaultLimit), SetTakenOff(true)];
      assert Exec(w, prog[1..], fault, 1) == Exec(w1, [SetTakenOff(true)], fault, 1);
      assert [SetTakenOff(true)][1..] == [];
    }
  }

  /** Pressing `t` twice leaves the first guard released with its stop event
      never set: its loop keeps running next to the new one. */
  lemma DoubleTakeoffOrphansGuard(w: World)
    requires w.session.guard.None?
    ensures var o1 := HandleKey(w, KeyT, None);
      var o2 := HandleKey(o1.world, KeyT, None);
      && o2.world.released == w.released + [HG.Create(HG.DefaultLimit)]
      && !o2.world.released[|o2.world.released| - 1].stopRequested
  {
    TakeoffKey(w, None);
    var o1 := HandleKey(w, KeyT, None);
    TakeoffKey(o1.world, None);
  }

  /** Airborne, `l` lands and, unless `land` raised, stops and drops the
      guard and clears the flag together. */
  lemma LandKey(w: World, fault: Fault)
    requires w.session.hasTakenOff
    ensures var o := HandleKey(w, KeyL, fault);
      && o.trace == [Sdk(Land)]
      && (Raises(fault, 0) ==> o.world == w && o.status == Aborted)
      && (!Raises(fault, 0) ==> o.world == Landed(w) && o.status == Completed)
  {
    assert KeyProgram(w, KeyL) == LandProgram;
    LandProgramEffect(w, fault);
  }

  /** Airborne, `e` sends `emergency` and nothing else: the flag and the
      guard are left as they were. */
  lemma EmergencyKey(w: World, fault: Fault)
    requires w.session.hasTakenOff
    ensures var o := HandleKey(w, KeyE, fault);
      && o.world == w
      && o.trace == [Sdk(Emergency)]
      && (o.status == Aborted <==> Raises(fault, 0))
  {
    assert KeyProgram(w, KeyE) == [Call(Emergency)];
    SingleCall(w, Emergency, fault);
  }

  /** `h` and `b` only query the drone. */
  lemma QueryKeys(w: World, fault: Fault)
    ensures HandleKey(w, KeyH, fault).world == w
    ensures HandleKey(w, KeyH, fault).trace == [Sdk(GetHeight)]
    ensures HandleKey(w, KeyB, fault).world == w
    ensures HandleKey(w, KeyB, fault).trace == [Sdk(GetBattery)]
  {
    SingleCall(w, GetHeight, fault);
    SingleCall(w, GetBattery, fault);
  }

  /** `p` toggles the freeze (snapshotting when it freezes) and makes no SDK
      call; on an uninitialized camera the raised exception ends the thread. */
  lemma FreezeKeyToggles(w: World, fault: Fault)
    ensures var o := HandleKey(w, KeyP, fault);
      && (w.camera.initialized ==>
            && o.status == Completed
            && o.trace == [Froze(!w.camera.frozen)]
            && o.world == w.(camera := VD.VideoFreeze(w.camera, !w.camera.frozen).value))
      && (!w.camera.initialized ==> o == Outcome(w, [], Crashed))
  {
    var prog := KeyProgram(w, KeyP);
    assert prog == [SetFreeze(!w.camera.frozen)];
    assert prog[1..] == [];
    if w.camera.initialized {
      var w1 := w.(camera := VD.VideoFreeze(w.camera, !w.camera.frozen).value);
      assert Exec(w1, [], fault, 0) == Outcome(w1, [], Completed);
    }
  }

  // ---------------------------------------------------------------------
  // thread__handle_actions
  // ---------------------------------------------------------------------

  const MacroA: seq<Instr> :=
    [Call(RotateClockwise(360)), Pause(5), Call(RotateClockwise(180)), Call(MoveForward(30))]

  function MacroB(frame: VD.Image): seq<Instr>
  {
    [Call(RotateClockwise(180)), SetFreeze(true), SavePhoto(frame), SetFreeze(false)]
  }

  /** The label-to-macro dispatch; unknown labels only log. */
  function MacroFor(t: Token): (prog: seq<Instr>)
    ensures t.text != "B" ==> !HasFreeze(prog)
    ensures t.text != "C" ==> !TouchesSession(prog)
  {
    if t.text == "A" then MacroA
    else if t.text == "B" then MacroB(t.frame)
    else if t.text == "C" then LandProgram
    else []
  }

  /** One token taken from the action queue and handled. */
  function HandleAction(w: World, t: Token, fault: Fault): (o: Outcome)
    ensures t.text != "B" ==> o.world.camera == w.camera && o.status != Crashed
    ensures t.text != "C" ==> o.world.session == w.session && o.world.released == w.released
  {
    var prog := MacroFor(t);
    if t.text == "B" then ExecKeepsSession(w, prog, fault, 0); Exec(w, prog, fault, 0)
    else if t.text == "C" then ExecKeepsCamera(w, prog, fault, 0); Exec(w, prog, fault, 0)
    else ExecKeepsCamera(w, prog, fault, 0); ExecKeepsSession(w, prog, fault, 0); Exec(w, prog, fault, 0)
  }

  /** `A` rotates a full turn, pauses five seconds, turns half back and moves
      forward; a failing call ends the macro right after it. */
  lemma MacroAEffect(w: World, frame: VD.Image, fault: Fault)
    ensures var o := HandleAction(w, Token("A", frame), fault);
      && o.world == w
      && (fault.None? ==>
            (o.status == Completed && o.trace ==
               [Sdk(RotateClockwise(360)), Slept(5), Sdk(RotateClockwise(180)), Sdk(MoveForward(30))]))
      && (Raises(fault, 0) ==> o.status == Aborted && o.trace == [Sdk(RotateClockwise(360))])
      && (Raises(fault, 1) ==>
            (o.status == Aborted && o.trace == [Sdk(RotateClockwise(360)), Slept(5), Sdk(RotateClockwise(180))]))
      && (Raises(fault, 2) ==>
            (o.status == Aborted && o.trace ==
               [Sdk(RotateClockwise(360)), Slept(5), Sdk(RotateClockwise(180)), Sdk(MoveForward(30))]))
  {
    var m := MacroA;
    assert m[1..] == [Pause(5), Call(RotateClockwise(180)), Call(MoveForward(30))];
    assert m[1..][1..] == [Call(RotateClockwise(180)), Call(MoveForward(30))];
    assert m[1..][1..][1..] == [Call(MoveForward(30))];
    assert m[1..][1..][1..][1..] == [];
  }

  /** `B` turns half round, then brackets the photo of the token's frame with
      freeze and unfreeze: the camera ends live, holding as snapshot the frame
      that was current when the macro froze it. If the turn raises, the
      freeze, the photo and the unfreeze are all skipped; on an
      uninitialized camera the freeze ends the thread before the photo. */
  lemma MacroBEffect(w: World, frame: VD.Image, fault: Fault)
    ensures var o := HandleAction(w, Token("B", frame), fault);
      && (Raises(fault, 0) ==> o == Outcome(w, [Sdk(RotateClockwise(180))], Aborted))
      && (!Raises(fault, 0) && !w.camera.initialized ==> o == Outcome(w, [Sdk(RotateClockwise(180))], Crashed))
      && (!Raises(fault, 0) && w.camera.initialized ==>
            && o.status == Completed
            && o.trace == [Sdk(RotateClockwise(180)), Froze(true), Saved(frame), Froze(false)]
            && o.world == w.(camera := w.camera.(frozen := false, lastFrame := w.camera.frame)))
  {
    if Raises(fault, 0) {
      ExecHalts(w, MacroB(frame), fault, 0);
    } else {
      assert MacroB(frame)[1..] == [SetFreeze(true), SavePhoto(frame), SetFreeze(false)];
      ExecUnfold(w, MacroB(frame), fault, 0);
      if w.camera.initialized {
        FreezeSaveThaw(w, frame, fault);
      } else {
        ExecHalts(w, [SetFreeze(true), SavePhoto(frame), SetFreeze(false)], fault, 1);
      }
    }
  }

  /** The photo part of `B`: freeze, save the frame, unfreeze. */
  lemma FreezeSaveThaw(w: World, frame: VD.Image, fault: Fault)
    requires w.camera.initialized
    ensures Exec(w, [SetFreeze(true), SavePhoto(frame), SetFreeze(false)], fault, 1) ==
      Outcome(w.(camera := w.camera.(frozen := false, lastFrame := w.camera.frame)),
              [Froze(true), Saved(frame), Froze(false)], Completed)
  {
    var w1 := w.(camera := w.camera.(frozen := true, lastFrame := w.camera.frame));
    SaveThaw(w1, frame, fault);
    assert [SetFreeze(true), SavePhoto(frame), SetFreeze(false)][1..] == [SavePhoto(frame), SetFreeze(false)];
    ExecUnfold(w, [SetFreeze(true), SavePhoto(frame), SetFreeze(false)], fault, 1);
  }

  lemma SaveThaw(w: World, frame: VD.Image, fault: Fault)
    requires w.camera.initialized
    ensures Exec(w, [SavePhoto(frame), SetFreeze(false)], fault, 1) ==
      Outcome(w.(camera := w.camera.(frozen := false)), [Saved(frame), Froze(false)], Completed)
  {
    var w2 := w.(camera := w.camera.(frozen := false));
    assert Exec(w2, [], fault, 1) == Outcome(w2, [], Completed);
    assert [SetFreeze(false)][1..] == [];
    assert Exec(w, [SetFreeze(false)], fault, 1) == Outcome(w2, [Froze(false)], Completed);
    assert [SavePhoto(frame), SetFreeze(false)][1..] == [SetFreeze(false)];
  }

  /** `C` behaves like landing, with no take-off gate. */
  lemma MacroCEffect(w: World, frame: VD.Image, fault: Fault)
    ensures var o := HandleAction(w, Token("C", frame), fault);
      && o.trace == [Sdk(Land)]
      && (Raises(fault, 0) ==> o.world == w && o.status == Aborted)
      && (!Raises(fault, 0) ==> o.world == Landed(w) && o.status == Completed)
  {
    LandProgramEffect(w, fault);
  }

  /** Any other label issues no command and changes nothing. */
  lemma OtherLabelsDoNothing(w: World, t: Token, fault: Fault)
    requires t.text != "A" && t.text != "B" && t.text != "C"
    ensures HandleAction(w, t, fault) == Outcome(w, [], Completed)
  {
  }

  // ---------------------------------------------------------------------
  // Consumers
  // ---------------------------------------------------------------------

  /** An item taken from one of the two queues, with the SDK call (if any)
      that raises while it is handled. */
  datatype Job = KeyJob(key: int, fault: Fault) | ActionJob(token: Token, fault: Fault)

  function Handle(w: World, j: Job): Outcome
  {
    match j
    case KeyJob(key, fault) => HandleKey(w, key, fault)
    case ActionJob(t, fault) => HandleAction(w, t, fault)
  }

  /** A consumer thread after working through a queue: the world, everything
      it did, how many items it took, and whether the thread still runs. */
  datatype Drained = Drained(world: World, trace: seq<Event>, consumed: nat, alive: bool)

  /** The consumer loop: take items in queue order, one at a time, until the
      queue is empty or a handler raises an exception it does not catch. */
  function Drain(w: World, jobs: seq<Job>): (r: Drained)
    ensures r.consumed <= |jobs|
    ensures r.alive ==> r.consumed == |jobs|
    ensures !r.alive ==> !w.camera.initialized && r.consumed > 0
    ensures r.world.camera.initialized == w.camera.initialized
    decreases |jobs|
  {
    if |jobs| == 0 then Drained(w, [], 0, true)
    else
      var o := Handle(w, jobs[0]);
      if o.status == Crashed then Drained(o.world, o.trace, 1, false)
      else
        var rest := Drain(o.world, jobs[1..]);
        Drained(rest.world, o.trace + rest.trace, rest.consumed + 1, rest.alive)
  }

  /** A `TelloException` only cuts its own item short: with the camera
      initialized, the consumer handles every queued item whatever fails. */
  lemma ConsumerOutlivesDroneErrors(w: World, jobs: seq<Job>)
    requires w.camera.initialized
    ensures Drain(w, jobs).alive && Drain(w, jobs).consumed == |jobs|
  {
  }

  /** Nothing keeps a second detection from running while or after the first
      one's macro: two `B` tokens run the `B` macro twice, in order. */
  lemma TwoBTokensRunTwice(w: World, f1: VD.Image, f2: VD.Image)
    requires w.camera.initialized
    ensures Drain(w, [ActionJob(Token("B", f1), None), ActionJob(Token("B", f2), None)]).trace ==
      [Sdk(RotateClockwise(180)), Froze(true), Saved(f1), Froze(false),
       Sdk(RotateClockwise(180)), Froze(true), Saved(f2), Froze(false)]
  {
    var jobs := [ActionJob(Token("B", f1), None), ActionJob(Token("B", f2), None)];
    MacroBEffect(w, f1, None);
    var w1 := Handle(w, jobs[0]).world;
    MacroBEffect(w1, f2, None);
    assert jobs[1..] == [ActionJob(Token("B", f2), None)];
    DrainCons(w1, jobs[1..]);
    assert jobs[1..][1..] == [];
    DrainCons(w, jobs);
  }

  /** The consumer handles the first item, then drains the rest from where
      that handler left the world. */
  lemma DrainCons(w: World, jobs: seq<Job>)
    requires |jobs| > 0 && Handle(w, jobs[0]).status != Crashed
    ensures var o := Handle(w, jobs[0]);
      Drain(w, jobs).trace == o.trace + Drain(o.world, jobs[1..]).trace
  {
  }

  // ---------------------------------------------------------------------
  // The session invariant
  // ---------------------------------------------------------------------

  /** A guard is held exactly while the drone is flagged airborne: `t` sets
      both, `l` and `C` clear both, and nothing else touches either. */
  predicate SessionValid(w: World)
  {
    w.session.guard.Some? <==> w.session.hasTakenOff
  }

  /** The state `main` starts the consumers in satisfies the invariant. */
  lemma InitialSessionValid(camera: VD.Driver)
    ensures SessionValid(World(camera, State(false, None), []))
  {
  }

  /** Every key handler keeps the invariant, whether its calls fail or not. */
  lemma HandleKeyKeepsSessionValid(w: World, key: int, fault: Fault)
    requires SessionValid(w)
    ensures SessionValid(HandleKey(w, key, fault).world)
  {
    if key == KeyT {
      TakeoffKey(w, fault);
    } else if key == KeyL {
      if w.session.hasTakenOff {
        LandKey(w, fault);
      } else {
        GroundedKeysDoNothing(w, key, fault);
      }
    }
  }

  /** Every macro keeps the invariant, whether its calls fail or not. */
  lemma HandleActionKeepsSessionValid(w: World, t: Token, fault: Fault)
    requires SessionValid(w)
    ensures SessionValid(HandleAction(w, t, fault).world)
  {
    if t.text == "C" {
      assert t == Token("C", t.frame);
      MacroCEffect(w, t.frame, fault);
    }
  }

  /** A consumer keeps the invariant over its whole queue. Since the queue
      may mix key items and detection items, this covers every order in
      which the two consumer threads run their handlers one after another. */
  lemma {:induction false} DrainKeepsSessionValid(w: World, jobs: seq<Job>)
    requires SessionValid(w)
    ensures SessionValid(Drain(w, jobs).world)
    decreases |jobs|
  {
    if |jobs| > 0 {
      match jobs[0] {
        case KeyJob(key, fault) => HandleKeyKeepsSessionValid(w, key, fault);
        case ActionJob(t, fault) => HandleActionKeepsSessionValid(w, t, fault);
      }
      var o := Handle(w, jobs[0]);
      if o.status != Crashed {
        DrainKeepsSessionValid(o.world, jobs[1..]);
      }
    }
  }

  // ---------------------------------------------------------------------
  // Producers: one iteration of `main`'s loop
  // ---------------------------------------------------------------------

  /** One iteration's output: the key put on the key queue (if any), the
      tokens put on the action queue, and how the loop goes on. */
  datatype MainStep = MainStep(enqueued: Option<int>, tokens: seq<Token>, next: Next)

  /** The inputs of one iteration: the raw `waitKey` result, the camera as
      this iteration finds it, and what recognition reports for the frame. */
  datatype Tick = Tick(raw: int, camera: VD.Driver, detections: seq<Detection>)

  /** The key sampled in an iteration goes to the key queue unless it is
      the "no key" code. */
  function EnqueuedKey(raw: int): (k: Option<int>)
    ensures k.None? <==> MaskKey(raw) == NoKey
    ensures k.Some? ==> 0 <= k.value < NoKey && k.value == MaskKey(raw)
  {
    var key := MaskKey(raw);
    if key != NoKey then Some(key) else None
  }

  /** One iteration of `main`'s loop. */
  function MainIteration(t: Tick): (s: MainStep)
    ensures s.enqueued == EnqueuedKey(t.raw)
    ensures MaskKey(t.raw) == KeyQ ==> s.next == Quit && s.tokens == []
    ensures s.next == Crash <==> MaskKey(t.raw) != KeyQ && GrabFrame(t.camera).GrabCrash?
    ensures MaskKey(t.raw) != KeyQ && GrabFrame(t.camera).Grabbed? ==>
      s.tokens == FilterDetections(t.detections, t.camera.frame.value)
    ensures !GrabFrame(t.camera).Grabbed? ==> s.tokens == []
  {
    var enq := EnqueuedKey(t.raw);
    if MaskKey(t.raw) == KeyQ then MainStep(enq, [], Quit)
    else match GrabFrame(t.camera)
      case GrabCrash => MainStep(enq, [], Crash)
      case Skipped => MainStep(enq, [], Continue)
      case Grabbed(frame) => MainStep(enq, FilterDetections(t.detections, frame), Continue)
  }

  /** The keys a sequence of iterations puts on the key queue. */
  function KeysOf(ticks: seq<Tick>): seq<int>
  {
    if |ticks| == 0 then []
    else KeysOf(ticks[..|ticks| - 1]) + OptionToSeq(EnqueuedKey(ticks[|ticks| - 1].raw))
  }

  /** The tokens a sequence of iterations puts on the action queue. */
  function TokensOf(ticks: seq<Tick>): seq<Token>
  {
    if |ticks| == 0 then []
    else TokensOf(ticks[..|ticks| - 1]) + MainIteration(ticks[|ticks| - 1]).tokens
  }

  /** The key queue never holds the "no key" code, only masked codes. */
  lemma {:induction false} KeysOfNeverNoKey(ticks: seq<Tick>)
    ensures forall i :: 0 <= i < |KeysOf(ticks)| ==> 0 <= KeysOf(ticks)[i] < NoKey
    decreases |ticks|
  {
    if |ticks| > 0 {
      KeysOfNeverNoKey(ticks[..|ticks| - 1]);
    }
  }

  /** Every pressed key is queued, in arrival order: the queue built from
      two stretches of iterations is the first's keys followed by the
      second's. */
  lemma {:induction false} KeysOfAppend(a: seq<Tick>, b: seq<Tick>)
    ensures KeysOf(a + b) == KeysOf(a) + KeysOf(b)
    decreases |b|
  {
    if |b| == 0 {
      assert a + b == a;
    } else {
      assert (a + b)[..|a + b| - 1] == a + b[..|b| - 1];
      KeysOfAppend(a, b[..|b| - 1]);
    }
  }

  /** Runs `main`'s loop over `ticks` until an iteration quits or crashes;
      returns the contents of both queues and the number of iterations run. */
  /** One more iteration appends its key and its tokens to the queues. */
  lemma QueuesGrow(ticks: seq<Tick>, m: nat)
    requires m < |ticks|
    ensures KeysOf(ticks[..m + 1]) == KeysOf(ticks[..m]) + OptionToSeq(MainIteration(ticks[m]).enqueued)
    ensures TokensOf(ticks[..m + 1]) == TokensOf(ticks[..m]) + MainIteration(ticks[m]).tokens
  {
    assert ticks[..m + 1][..m] == ticks[..m];
  }

  method RunMain(ticks: seq<Tick>) returns (keys: seq<int>, tokens: seq<Token>, m: nat)
    ensures m <= |ticks|
    ensures forall i :: 0 <= i < m - 1 ==> MainIteration(ticks[i]).next == Continue
    ensures m < |ticks| ==> m > 0 && MainIteration(ticks[m - 1]).next != Continue
    ensures keys == KeysOf(ticks[..m])
    ensures tokens == TokensOf(ticks[..m])
  {
    keys, tokens, m := [], [], 0;
    var stopped := false;
    while m < |ticks| && !stopped
      invariant m <= |ticks|
      invariant keys == KeysOf(ticks[..m])
      invariant tokens == TokensOf(ticks[..m])
      invariant forall i :: 0 <= i < m - 1 ==> MainIteration(ticks[i]).next == Continue
      invariant !stopped && m > 0 ==> MainIteration(ticks[m - 1]).next == Continue
      invariant stopped ==> m > 0 && MainIteration(ticks[m - 1]).next != Continue
    {
      var step := MainIteration(ticks[m]);
      QueuesGrow(ticks, m);
      keys := keys + OptionToSeq(step.enqueued);
      tokens := tokens + step.tokens;
      stopped := step.next != Continue;
      m := m + 1;
    }
  }
}

=== FILE: session.dfy ===
/** The shared state of `poc-6.py` and the effects its two consumer threads
    (`thread__wait_key` and `thread__handle_actions`) have on it. A handler's
    work is a short program of primitive steps; `Exec` runs such a program
    the way the Python handler body runs: an SDK call that raises a
    `TelloException` aborts the remaining steps (the handler's `except`
    catches it), while a failing `set_freeze` raises a plain exception that
    no handler catches, so the thread ends. */
module Session {
  import opened Common
  import opened Tello
  import VD = VideoDriver
  import HG = HeightGuard

  /** The module globals `has_taken_off` and `height_guard`. */
  datatype State = State(hasTakenOff: bool, guard: Option<HG.Guard>)

  /** Everything a handler can change: the camera driver, the session, and
      the guards the session no longer refers to. A released guard's loop is
      still running: replacing `height_guard` does not stop the old one, and
      stopping it does not end its loop. */
  datatype World = World(camera: VD.Driver, session: State, released: seq<HG.Guard>)

  /** One primitive step of a handler. */
  datatype Instr =
    | Call(command: Command)      // SDK call; a TelloException aborts the rest
    | TryCall(command: Command)   // SDK call inside `try: ... except Exception: pass`
    | Pause(seconds: nat)         // `time.sleep(seconds)`
    | SetFreeze(frozen: bool)     // `camera.set_freeze(frozen)`, i.e. `video_freeze`
    | SavePhoto(photo: VD.Image)  // `cv2.imwrite(filename, frame)`
    | StartGuard(limit: int)      // `height_guard = HeightGuard(limit, drone)`
    | StopGuard                   // `if height_guard is not None: stop(); height_guard = None`
    | SetTakenOff(value: bool)    // `has_taken_off = value`

  /** What a handler does that is visible outside the process. */
  datatype Event =
    | Sdk(command: Command)
    | Slept(seconds: nat)
    | Froze(frozen: bool)
    | Saved(photo: VD.Image)

  /** How a handler ended: it ran to the end, a `TelloException` cut it short
      (the thread goes on), or an uncaught exception ended the thread. */
  datatype Status = Completed | Aborted | Crashed

  datatype Outcome = Outcome(world: World, trace: seq<Event>, status: Status)

  /** The SDK call an instruction makes when nothing fails. */
  function InstrCalls(i: Instr): seq<Command>
  {
    if i.Call? || i.TryCall? then [i.command] else []
  }

  /** The SDK calls a program makes when nothing fails. */
  function ProgramCalls(prog: seq<Instr>): seq<Command>
  {
    if |prog| == 0 then [] else InstrCalls(prog[0]) + ProgramCalls(prog[1..])
  }

  /** The SDK calls recorded in a trace. */
  function TraceCalls(trace: seq<Event>): seq<Command>
  {
    if |trace| == 0 then []
    else if trace[0].Sdk? then [trace[0].command] + TraceCalls(trace[1..])
    else TraceCalls(trace[1..])
  }

  /** Whether a program touches the camera. */
  predicate HasFreeze(prog: seq<Instr>)
  {
    exists i :: 0 <= i < |prog| && prog[i].SetFreeze?
  }

  /** Whether a program touches `has_taken_off` or `height_guard`. */
  predicate TouchesSession(prog: seq<Instr>)
  {
    exists i :: 0 <= i < |prog| && IsSessionStep(prog[i])
  }

  /** Whether an instruction touches `has_taken_off` or `height_guard`. */
  predicate IsSessionStep(i: Instr)
  {
    i.StartGuard? || i.StopGuard? || i.SetTakenOff?
  }

  /** The effect of one instruction: the world after it, what it did, how
      many SDK calls it made, and the status it ends the handler with, if it
      ends it. */
  datatype Effect = Effect(world: World, events: seq<Event>, calls: nat, halt: Option<Status>)

  /** Runs one instruction; `n` SDK calls have already been made and the call
      numbered `fault` (if any) raises. */
  function Perform(w: World, i: Instr, fault: Fault, n: nat): (e: Effect)
    ensures TraceCalls(e.events) == InstrCalls(i)
    ensures e.calls == |TraceCalls(e.events)|
    ensures e.halt == Some(Aborted) <==> i.Call? && Raises(fault, n)
    ensures e.halt == Some(Crashed) <==> i.SetFreeze? && !w.camera.initialized
    ensures e.halt != Some(Completed)
    ensures e.halt.Some? ==> e.world == w
    ensures e.world.camera.initialized == w.camera.initialized
    ensures !i.SetFreeze? ==> e.world.camera == w.camera
    ensures !IsSessionStep(i) ==> e.world.session == w.session && e.world.released == w.released
  {
    match i
    case Call(c) =>
      assert [Sdk(c)][1..] == [];
      Effect(w, [Sdk(c)], 1, if Raises(fault, n) then Some(Aborted) else None)
    case TryCall(c) =>
      assert [Sdk(c)][1..] == [];
      Effect(w, [Sdk(c)], 1, None)
    case Pause(s) =>
      assert [Slept(s)][1..] == [];
      Effect(w, [Slept(s)], 0, None)
    case SetFreeze(b) =>
      (match VD.VideoFreeze(w.camera, b)
       case Err(_) => Effect(w, [], 0, Some(Crashed))
       case Ok(d) =>
         assert [Froze(b)][1..] == [];
         Effect(w.(camera := d), [Froze(b)], 0, None))
    case SavePhoto(p) =>
      assert [Saved(p)][1..] == [];
      Effect(w, [Saved(p)], 0, None)
    case StartGuard(limit) =>
      var session := w.session.(guard := Some(HG.Create(limit)));
      Effect(w.(session := session, released := w.released + OptionToSeq(w.session.guard)), [], 0, None)
    case StopGuard =>
      if w.session.guard.Some? then
        var session := w.session.(guard := None);
        Effect(w.(session := session, released := w.released + [HG.Stop(w.session.guard.value)]), [], 0, None)
      else Effect(w, [], 0, None)
    case SetTakenOff(b) =>
      Effect(w.(session := w.session.(hasTakenOff := b)), [], 0, None)
  }

  /** Runs `prog` on `w`; `n` SDK calls have already been made by this
      handler and the call numbered `fault` (if any) raises. */
  function Exec(w: World, prog: seq<Instr>, fault: Fault, n: nat): (o: Outcome)
    ensures o.status == Crashed ==> !w.camera.initialized
    ensures fault.None? ==> o.status != Aborted
    ensures o.world.camera.initialized == w.camera.initialized
    decreases |prog|
  {
    if |prog| == 0 then Outcome(w, [], Completed)
    else
      var rest := prog[1..];
      var e := Perform(w, prog[0], fault, n);
      if e.halt.Some? then Outcome(e.world, e.events, e.halt.value)
      else
        var o := Exec(e.world, rest, fault, n + e.calls);
        Outcome(o.world, e.events + o.trace, o.status)
  }

  /** Only a freeze step touches the camera or ends the thread: a program
      without one leaves the camera as it was and never crashes. */
  lemma {:induction false} ExecKeepsCamera(w: World, prog: seq<Instr>, fault: Fault, n: nat)
    requires !HasFreeze(prog)
    ensures Exec(w, prog, fault, n).world.camera == w.camera
    ensures Exec(w, prog, fault, n).status != Crashed
    decreases |prog|
  {
    if |prog| > 0 {
      var e := Perform(w, prog[0], fault, n);
      NoFreezeTail(prog);
      if e.halt.None? {
        var rest := Exec(e.world, prog[1..], fault, n + e.calls);
        ExecKeepsCamera(e.world, prog[1..], fault, n + e.calls);
        CameraAfterStep(w, prog, fault, n, rest);
      } else {
        ExecHalts(w, prog, fault, n);
      }
    }
  }

  lemma NoFreezeTail(prog: seq<Instr>)
    requires |prog| > 0 && !HasFreeze(prog)
    ensures !prog[0].SetFreeze? && !HasFreeze(prog[1..])
  {
    assert forall i :: 0 <= i < |prog| - 1 ==> prog[1..][i] == prog[i + 1];
  }

  /** The inductive step of `ExecKeepsCamera`: `rest` is the run of the
      tail, and the requires about `rest` restate the induction hypothesis. */
  lemma CameraAfterStep(w: World, prog: seq<Instr>, fault: Fault, n: nat, rest: Outcome)
    requires |prog| > 0 && !prog[0].SetFreeze? && Perform(w, prog[0], fault, n).halt.None?
    requires rest == Exec(Perform(w, prog[0], fault, n).world, prog[1..], fault, n + Perform(w, prog[0], fault, n).calls)
    requires rest.world.camera == Perform(w, prog[0], fault, n).world.camera && rest.status != Crashed
    ensures Exec(w, prog, fault, n).world.camera == w.camera
    ensures Exec(w, prog, fault, n).status != Crashed
  {
    ExecUnfold(w, prog, fault, n);
  }

  /** Only a session step touches `has_taken_off` or `height_guard`: a
      program without one leaves the session and the released guards as
      they were. */
  lemma {:induction false} ExecKeepsSession(w: World, prog: seq<Instr>, fault: Fault, n: nat)
    requires !TouchesSession(prog)
    ensures Exec(w, prog, fault, n).world.session == w.session
    ensures Exec(w, prog, fault, n).world.released == w.released
    decreases |prog|
  {
    if |prog| > 0 {
      var e := Perform(w, prog[0], fault, n);
      NoSessionTail(prog);
      if e.halt.None? {
        var rest := Exec(e.world, prog[1..], fault, n + e.calls);
        ExecKeepsSession(e.world, prog[1..], fault, n + e.calls);
        SessionAfterStep(w, prog, fault, n, rest);
      } else {
        ExecHalts(w, prog, fault, n);
      }
    }
  }

  lemma NoSessionTail(prog: seq<Instr>)
    requires |prog| > 0 && !TouchesSession(prog)
    ensures !IsSessionStep(prog[0]) && !TouchesSession(prog[1..])
  {
    assert forall i :: 0 <= i < |prog| - 1 ==> prog[1..][i] == prog[i + 1];
  }

  /** The inductive step of `ExecKeepsSession`: `rest` is the run of the
      tail, and the requires about `rest` restate the induction hypothesis. */
  lemma SessionAfterStep(w: World, prog: seq<Instr>, fault: Fault, n: nat, rest: Outcome)
    requires |prog| > 0 && !IsSessionStep(prog[0]) && Perform(w, prog[0], fault, n).halt.None?
    requires rest == Exec(Perform(w, prog[0], fault, n).world, prog[1..], fault, n + Perform(w, prog[0], fault, n).calls)
    requires rest.world.session == Perform(w, prog[0], fault, n).world.session
    requires rest.world.released == Perform(w, prog[0], fault, n).world.released
    ensures Exec(w, prog, fault, n).world.session == w.session
    ensures Exec(w, prog, fault, n).world.released == w.released
  {
    ExecUnfold(w, prog, fault, n);
  }

  /** The SDK calls a handler makes are the program's calls in order, all
      of them when it completes: a handler that stops early stops on a
      prefix of its calls. */
  lemma {:induction false} ExecCallsFollowProgram(w: World, prog: seq<Instr>, fault: Fault, n: nat)
    ensures CallsFollow(Exec(w, prog, fault, n), ProgramCalls(prog))
    decreases |prog|
  {
    if |prog| > 0 {
      var e := Perform(w, prog[0], fault, n);
      if e.halt.None? {
        var rest := Exec(e.world, prog[1..], fault, n + e.calls);
        ExecCallsFollowProgram(e.world, prog[1..], fault, n + e.calls);
        CallsAfterStep(w, prog, fault, n, rest);
      } else {
        CallsOnHalt(w, prog, fault, n);
      }
    }
  }

  /** The inductive step of `ExecCallsFollowProgram`: `rest` is the run of the
      tail, and the requires about `rest` restate the induction hypothesis. */
  lemma CallsAfterStep(w: World, prog: seq<Instr>, fault: Fault, n: nat, rest: Outcome)
    requires |prog| > 0 && Perform(w, prog[0], fault, n).halt.None?
    requires rest == Exec(Perform(w, prog[0], fault, n).world, prog[1..], fault, n + Perform(w, prog[0], fault, n).calls)
    requires CallsFollow(rest, ProgramCalls(prog[1..]))
    ensures CallsFollow(Exec(w, prog, fault, n), ProgramCalls(prog))
  {
    var e := Perform(w, prog[0], fault, n);
    ProgramCallsCons(prog);
    ExecUnfold(w, prog, fault, n);
    assert TraceCalls(e.events) == InstrCalls(prog[0]);
    assert Exec(w, prog, fault, n).trace == e.events + rest.trace;
    assert Exec(w, prog, fault, n).status == rest.status;
    CallsFollowShift(e.events, rest, Exec(w, prog, fault, n), InstrCalls(prog[0]), ProgramCalls(prog[1..]));
  }

  lemma CallsOnHalt(w: World, prog: seq<Instr>, fault: Fault, n: nat)
    requires |prog| > 0 && Perform(w, prog[0], fault, n).halt.Some?
    ensures CallsFollow(Exec(w, prog, fault, n), ProgramCalls(prog))
  {
    ProgramCallsCons(prog);
    ExecHalts(w, prog, fault, n);
    CallsFollowHalt(Exec(w, prog, fault, n), InstrCalls(prog[0]), ProgramCalls(prog[1..]));
  }

  lemma ProgramCallsCons(prog: seq<Instr>)
    requires |prog| > 0
    ensures ProgramCalls(prog) == InstrCalls(prog[0]) + ProgramCalls(prog[1..])
  {
  }

  /** The calls in `o`'s trace are a prefix of `calls`, and all of them when
      `o` completed. */
  predicate CallsFollow(o: Outcome, calls: seq<Command>)
  {
    && IsPrefix(TraceCalls(o.trace), calls)
    && (o.status == Completed ==> TraceCalls(o.trace) == calls)
  }

  lemma CallsFollowHalt(o: Outcome, head: seq<Command>, calls: seq<Command>)
    requires TraceCalls(o.trace) == head && o.status != Completed
    ensures CallsFollow(o, head + calls)
  {
    assert head == (head + calls)[..|head|];
  }

  lemma CallsFollowShift(events: seq<Event>, rest: Outcome, o: Outcome, head: seq<Command>, calls: seq<Command>)
    requires TraceCalls(events) == head
    requires CallsFollow(rest, calls)
    requires o.trace == events + rest.trace && o.status == rest.status
    ensures CallsFollow(o, head + calls)
  {
    TraceCallsAppend(events, rest.trace);
    PrefixExtend(head, TraceCalls(rest.trace), calls);
  }

  /** A `TelloException` aborts the handler exactly at the call that raises
      it: the last call made is the one numbered `fault`. */
  lemma {:induction false} ExecAbortsAtFault(w: World, prog: seq<Instr>, fault: Fault, n: nat)
    ensures AbortsAtFault(Exec(w, prog, fault, n), fault, n)
    decreases |prog|
  {
    if |prog| > 0 {
      var e := Perform(w, prog[0], fault, n);
      if e.halt.None? {
        var rest := Exec(e.world, prog[1..], fault, n + e.calls);
        ExecAbortsAtFault(e.world, prog[1..], fault, n + e.calls);
        AbortAfterStep(w, prog, fault, n, rest);
      } else {
        AbortOnHalt(w, prog, fault, n);
      }
    }
  }

  predicate AbortsAtFault(o: Outcome, fault: Fault, n: nat)
  {
    o.status == Aborted ==> |TraceCalls(o.trace)| > 0 && Raises(fault, n + |TraceCalls(o.trace)| - 1)
  }

  /** The inductive step of `ExecAbortsAtFault`: `rest` is the run of the
      tail, and the requires about `rest` restate the induction hypothesis. */
  lemma AbortAfterStep(w: World, prog: seq<Instr>, fault: Fault, n: nat, rest: Outcome)
    requires |prog| > 0 && Perform(w, prog[0], fault, n).halt.None?
    requires rest == Exec(Perform(w, prog[0], fault, n).world, prog[1..], fault, n + Perform(w, prog[0], fault, n).calls)
    requires AbortsAtFault(rest, fault, n + Perform(w, prog[0], fault, n).calls)
    ensures AbortsAtFault(Exec(w, prog, fault, n), fault, n)
  {
    var e := Perform(w, prog[0], fault, n);
    ExecUnfold(w, prog, fault, n);
    AbortShift(e.events, rest, Exec(w, prog, fault, n), fault, n, e.calls);
  }

  lemma AbortOnHalt(w: World, prog: seq<Instr>, fault: Fault, n: nat)
    requires |prog| > 0 && Perform(w, prog[0], fault, n).halt.Some?
    ensures AbortsAtFault(Exec(w, prog, fault, n), fault, n)
  {
    var e := Perform(w, prog[0], fault, n);
    ExecHalts(w, prog, fault, n);
    if e.halt == Some(Aborted) {
      assert prog[0].Call? && fault == Some(n);
      assert |TraceCalls(e.events)| == |InstrCalls(prog[0])| == 1;
    }
  }

  lemma AbortShift(events: seq<Event>, rest: Outcome, o: Outcome, fault: Fault, n: nat, calls: nat)
    requires calls == |TraceCalls(events)|
    requires AbortsAtFault(rest, fault, n + calls)
    requires o.trace == events + rest.trace && o.status == rest.status
    ensures AbortsAtFault(o, fault, n)
  {
    TraceCallsAppend(events, rest.trace);
  }

  /** `Exec` when the first instruction ends the handler. */
  lemma ExecHalts(w: World, prog: seq<Instr>, fault: Fault, n: nat)
    requires |prog| > 0 && Perform(w, prog[0], fault, n).halt.Some?
    ensures var e := Perform(w, prog[0], fault, n);
      Exec(w, prog, fault, n) == Outcome(e.world, e.events, e.halt.value)
  {
  }

  /** One step of `Exec` when the first instruction does not end the handler. */
  lemma ExecUnfold(w: World, prog: seq<Instr>, fault: Fault, n: nat)
    requires |prog| > 0 && Perform(w, prog[0], fault, n).halt.None?
    ensures var e := Perform(w, prog[0], fault, n);
      var rest := Exec(e.world, prog[1..], fault, n + e.calls);
      Exec(w, prog, fault, n) == Outcome(rest.world, e.events + rest.trace, rest.status)
  {
  }

  /** `a` is an initial segment of `b`. */
  predicate IsPrefix<T(==)>(a: seq<T>, b: seq<T>)
  {
    |a| <= |b| && a == b[..|a|]
  }

  lemma PrefixExtend<T>(c: seq<T>, a: seq<T>, b: seq<T>)
    requires IsPrefix(a, b)
    ensures IsPrefix(c + a, c + b)
  {
    assert (c + a) == (c + b)[..|c + a|];
  }

  lemma {:induction false} TraceCallsAppend(a: seq<Event>, b: seq<Event>)
    ensures TraceCalls(a + b) == TraceCalls(a) + TraceCalls(b)
    decreases |a|
  {
    if |a| == 0 {
      assert a + b == b;
    } else {
      assert (a + b)[1..] == a[1..] + b;
      TraceCallsAppend(a[1..], b);
    }
  }

  /** A program of one SDK call: the call is made, and nothing else happens. */
  lemma SingleCall(w: World, c: Command, fault: Fault)
    ensures Exec(w, [Call(c)], fault, 0) == Outcome(w, [Sdk(c)], if Raises(fault, 0) then Aborted else Completed)
    ensures Exec(w, [TryCall(c)], fault, 0) == Outcome(w, [Sdk(c)], Completed)
  {
    assert [Call(c)][1..] == [];
    assert [TryCall(c)][1..] == [];
  }

  /** `drone.land()`, then kill the height guard, then clear `has_taken_off`:
      shared by the `l` key and the `C` macro. */
  const LandProgram: seq<Instr> := [Call(Land), StopGuard, SetTakenOff(false)]

  /** The world after a successful landing: not airborne, no guard, and the
      old guard (if any) released with its stop event set. */
  function Landed(w: World): World
  {
    w.(session := State(false, None),
       released := w.released + (if w.session.guard.Some? then [HG.Stop(w.session.guard.value)] else []))
  }

  /** Landing issues exactly `land`; if it raises nothing else changes,
      otherwise the flag and the guard are cleared together and the guard
      is stopped. No take-off gate is involved. */
  lemma LandProgramEffect(w: World, fault: Fault)
    ensures var o := Exec(w, LandProgram, fault, 0);
      && o.trace == [Sdk(Land)]
      && (Raises(fault, 0) ==> o.world == w && o.status == Aborted)
      && (!Raises(fault, 0) ==> o.world == Landed(w) && o.status == Completed)
  {
    if Raises(fault, 0) {
      ExecHalts(w, LandProgram, fault, 0);
    } else {
      assert LandProgram[0] == Call(Land) && LandProgram[1..] == [StopGuard, SetTakenOff(false)];
      ExecUnfold(w, LandProgram, fault, 0);
      StopAndClear(w, fault, 1);
    }
  }

  /** Stopping the guard and clearing the flag is silent and lands the session. */
  lemma StopAndClear(w: World, fault: Fault, n: nat)
    ensures Exec(w, [StopGuard, SetTakenOff(false)], fault, n) == Outcome(Landed(w), [], Completed)
  {
    var prog := [StopGuard, SetTakenOff(false)];
    assert prog[0] == StopGuard && prog[1..] == [SetTakenOff(false)];
    ExecUnfold(w, prog, fault, n);
    var w1 := Perform(w, StopGuard, fault, n).world;
    SetFlag(w1, false, fault, n);
  }

  /** Setting `has_taken_off` is silent and changes nothing else. */
  lemma SetFlag(w: World, b: bool, fault: Fault, n: nat)
    ensures Exec(w, [SetTakenOff(b)], fault, n) == Outcome(w.(session := w.session.(hasTakenOff := b)), [], Completed)
  {
    assert [SetTakenOff(b)][0] == SetTakenOff(b) && [SetTakenOff(b)][1..] == [];
    ExecUnfold(w, [SetTakenOff(b)], fault, n);
  }
}

=== FILE: tello.dfy ===
/** The flight-command sink: the subset of the djitellopy `Tello` SDK that
    the core calls, as plain data. The transport is not modelled; a call
    either reaches the drone or raises a `TelloException`, and which call
    raises is an input of every operation that talks to the drone. */
module Tello {
  import opened Common

  datatype Command =
    | Connect
    | StreamOn
    | StreamOff
    | Takeoff
    | Land
    | Emergency
    | RotateClockwise(degrees: int)
    | MoveForward(cm: int)
    | MoveBack(cm: int)
    | MoveLeft(cm: int)
    | MoveRight(cm: int)
    | MoveUp(cm: int)
    | MoveDown(cm: int)
    | GetHeight
    | GetBattery

  /** Which SDK call of one operation raises: `Some(k)` makes the k-th call
      (counting from 0) raise, `None` lets every call succeed. */
  type Fault = Option<nat>

  predicate Raises(fault: Fault, k: nat)
  {
    fault == Some(k)
  }

  /** The result of a state change that issues SDK calls: the new value, the
      calls that reached the drone (the raising one included) and whether an
      exception escaped to the caller. */
  datatype Attempt<+T> = Attempt(value: T, calls: seq<Command>, raised: bool)
}

=== FILE: video_driver.dfy ===
/** The frame channel of `VideoDriver/video_driver.py`: the driver's
    `initialized`/`frozen`/`frame`/`last_frame` state machine, the H.264
    datagram reassembly loop, and the shaping of decoder output into images.
    The UDP socket, the heartbeat thread and the H.264 decoder itself are not
    modelled: datagrams arrive as an input sequence and the decoder is an
    uninterpreted function from bytes to raw pictures. */
module VideoDriver {
  import opened Common
  import opened Tello

  /** One pixel of a decoded picture: three 8-bit channels. */
  datatype Pixel = Pixel(c0: byte, c1: byte, c2: byte)

  /** A decoded picture: rows of pixels (numpy's `h x w x 3` array). */
  type Image = seq<seq<Pixel>>

  /** The mutable fields of a `VideoDriver` object. */
  datatype Driver = Driver(
    initialized: bool,
    frozen: bool,
    frame: Option<Image>,     // most recent decoded picture
    lastFrame: Option<Image>  // snapshot taken when the video was frozen
  )

  /** The plain `Exception` raised by `read` and `video_freeze`. */
  datatype DriverError = NotInitialized

  /** Status codes of `read`: 0 for the frozen snapshot, 1 for the live frame. */
  const FrozenStatus: int := 0
  const LiveStatus: int := 1

  datatype Reading = Reading(status: int, frame: Option<Image>)

  /** Datagrams of exactly this size continue a picture; any other size ends it. */
  const FullDatagram: nat := 1460

  // ---------------------------------------------------------------------
  // Driver state machine
  // ---------------------------------------------------------------------

  /** A freshly constructed driver: nothing decoded, not frozen, not initialized. */
  function New(): (d: Driver)
    ensures !d.initialized && !d.frozen
    ensures d.frame.None? && d.lastFrame.None?
  {
    Driver(false, false, None, None)
  }

  /** `initialize`: connect and start the stream unless already initialized.
      A raising `connect` or `streamon` propagates and leaves the flag false. */
  function Initialize(d: Driver, fault: Fault): (r: Attempt<Driver>)
    ensures d.initialized ==> r == Attempt(d, [], false)
    ensures !d.initialized ==> r.calls == (if Raises(fault, 0) then [Connect] else [Connect, StreamOn])
    ensures !d.initialized ==> (r.raised <==> Raises(fault, 0) || Raises(fault, 1))
    ensures r.value == d.(initialized := !r.raised)
  {
    if d.initialized then Attempt(d, [], false)
    else if Raises(fault, 0) then Attempt(d, [Connect], true)
    else if Raises(fault, 1) then Attempt(d, [Connect, StreamOn], true)
    else Attempt(d.(initialized := true), [Connect, StreamOn], false)
  }

  /** `shutdown`: stop the stream if initialized; otherwise only log. */
  function Shutdown(d: Driver, fault: Fault): (r: Attempt<Driver>)
    ensures !d.initialized ==> r == Attempt(d, [], false)
    ensures d.initialized ==> r.calls == [StreamOff] && (r.raised <==> Raises(fault, 0))
    ensures r.value == d.(initialized := d.initialized && r.raised)
  {
    if !d.initialized then Attempt(d, [], false)
    else if Raises(fault, 0) then Attempt(d, [StreamOff], true)
    else Attempt(d.(initialized := false), [StreamOff], false)
  }

  /** `read`: the snapshot while frozen, the live frame otherwise. */
  function Read(d: Driver): (r: Result<Reading, DriverError>)
    ensures r.Err? <==> !d.initialized
    ensures r.Ok? ==> r.value.status == FrozenStatus || r.value.status == LiveStatus
    ensures r.Ok? ==> (r.value.status == FrozenStatus <==> d.frozen)
    ensures r.Ok? && d.frozen ==> r.value.frame == d.lastFrame
    ensures r.Ok? && !d.frozen ==> r.value.frame == d.frame
  {
    if !d.initialized then Err(NotInitialized)
    else if d.frozen then Ok(Reading(FrozenStatus, d.lastFrame))
    else Ok(Reading(LiveStatus, d.frame))
  }

  /** `video_freeze(is_frozen)`: freezing snapshots the current frame at the
      moment of the call; unfreezing leaves the snapshot alone. */
  function VideoFreeze(d: Driver, isFrozen: bool): (r: Result<Driver, DriverError>)
    ensures r.Err? <==> !d.initialized
    ensures r.Ok? ==> r.value.initialized && r.value.frozen == isFrozen && r.value.frame == d.frame
    ensures r.Ok? && isFrozen ==> r.value.lastFrame == d.frame
    ensures r.Ok? && !isFrozen ==> r.value.lastFrame == d.lastFrame
  {
    if !d.initialized then Err(NotInitialized)
    else if isFrozen then Ok(d.(frozen := true, lastFrame := d.frame))
    else Ok(d.(frozen := false))
  }

  /** The receive loop's `self.frame = frame` for each decoded picture in turn. */
  function PublishAll(d: Driver, frames: seq<Image>): (r: Driver)
    ensures r == d.(frame := r.frame)
    ensures |frames| == 0 ==> r == d
    ensures |frames| > 0 ==> r.frame == Some(frames[|frames| - 1])
    decreases |frames|
  {
    if |frames| == 0 then d else PublishAll(d.(frame := Some(frames[0])), frames[1..])
  }

  /** Initializing twice is the same as initializing once. */
  lemma InitializeIdempotent(d: Driver, f: Fault, g: Fault)
    requires !Initialize(d, f).raised
    ensures Initialize(Initialize(d, f).value, g) == Attempt(Initialize(d, f).value, [], false)
  {
  }

  /** Shutting down twice is the same as shutting down once. */
  lemma ShutdownIdempotent(d: Driver, f: Fault, g: Fault)
    requires !Shutdown(d, f).raised
    ensures Shutdown(Shutdown(d, f).value, g) == Attempt(Shutdown(d, f).value, [], false)
  {
  }

  /** A driver that was initialized but has received no picture reads as
      live with no frame: the code has no separate "no frame" status. */
  lemma FreshDriverReadsLiveNothing(f: Fault)
    requires !Initialize(New(), f).raised
    ensures Read(Initialize(New(), f).value) == Ok(Reading(LiveStatus, None))
  {
  }

  /** Once frozen, no later publication changes what `read` returns: it is
      the frame current at the moment of the freeze. */
  lemma FrozenReadIgnoresPublication(d: Driver, frames: seq<Image>)
    requires d.initialized
    ensures Read(PublishAll(VideoFreeze(d, true).value, frames)) == Ok(Reading(FrozenStatus, d.frame))
  {
  }

  // ---------------------------------------------------------------------
  // Shaping decoder output (`_h264_decode`)
  // ---------------------------------------------------------------------

  /** One picture as the decoder reports it: pixel bytes (possibly absent),
      width, height and line size in bytes. */
  datatype RawFrame = RawFrame(data: Option<seq<byte>>, w: nat, h: nat, lineSize: nat)

  /** numpy's `reshape` raising because the byte count does not fit the shape. */
  datatype DecodeError = ReshapeMismatch

  /** Groups bytes into pixels, three at a time. */
  function Pixels(bytes: seq<byte>): (r: seq<Pixel>)
    requires |bytes| % 3 == 0
    ensures |r| == |bytes| / 3
    decreases |bytes|
  {
    if |bytes| == 0 then [] else [Pixel(bytes[0], bytes[1], bytes[2])] + Pixels(bytes[3..])
  }

  /** The bytes of a row of pixels, channel by channel. */
  function PixelBytes(ps: seq<Pixel>): seq<byte>
  {
    if |ps| == 0 then [] else [ps[0].c0, ps[0].c1, ps[0].c2] + PixelBytes(ps[1..])
  }

  /** The bytes of a whole picture, row by row. */
  function ImageBytes(img: Image): seq<byte>
  {
    if |img| == 0 then [] else PixelBytes(img[0]) + ImageBytes(img[1..])
  }

  lemma RowSplit(h: nat, cols: nat)
    requires h > 0
    ensures h * cols * 3 == cols * 3 + (h - 1) * cols * 3
  {
    calc {
      h * cols * 3;
      ((h - 1) + 1) * cols * 3;
      (h - 1) * cols * 3 + cols * 3;
    }
  }

  /** `reshape((h, cols, 3))` of a flat byte array. */
  function Rows(data: seq<byte>, h: nat, cols: nat): (r: Image)
    requires |data| == h * cols * 3
    ensures |r| == h
    ensures forall i :: 0 <= i < |r| ==> |r[i]| == cols
    decreases h
  {
    if h == 0 then []
    else
      RowSplit(h, cols);
      [Pixels(data[..cols * 3])] + Rows(data[cols * 3..], h - 1, cols)
  }

  /** `frame[:, :w, :]`: keeps at most the first `w` pixels of every row. */
  function Crop(img: Image, w: nat): (r: Image)
    ensures |r| == |img|
    ensures forall i :: 0 <= i < |r| ==> r[i] == img[i][..Min(w, |img[i]|)]
  {
    seq(|img|, i requires 0 <= i < |img| => img[i][..Min(w, |img[i]|)])
  }

  /** The picture is shaped only when its byte count fits `h` rows of
      `line_size // 3` pixels; otherwise `reshape` raises. */
  predicate Reshapeable(raw: RawFrame)
  {
    raw.data.None? || |raw.data.value| == raw.h * (raw.lineSize / 3) * 3
  }

  /** One iteration of `_h264_decode`'s loop for a picture with data. */
  function DecodeFrame(raw: RawFrame): (r: Result<Image, DecodeError>)
    requires raw.data.Some?
    ensures r.Ok? <==> Reshapeable(raw)
    ensures r.Ok? ==> |r.value| == raw.h
    ensures r.Ok? ==> forall i :: 0 <= i < |r.value| ==> |r.value[i]| == Min(raw.w, raw.lineSize / 3)
  {
    var cols := raw.lineSize / 3;
    if |raw.data.value| != raw.h * cols * 3 then Err(ReshapeMismatch)
    else Ok(Crop(Rows(raw.data.value, raw.h, cols), raw.w))
  }

  /** The decoder's pictures that carry data, in order. */
  function NonNull(raws: seq<RawFrame>): (r: seq<RawFrame>)
    ensures |r| <= |raws|
    ensures forall i :: 0 <= i < |r| ==> r[i].data.Some? && r[i] in raws
    ensures forall raw :: raw in raws && raw.data.Some? ==> raw in r
  {
    if |raws| == 0 then []
    else if raws[0].data.None? then NonNull(raws[1..])
    else [raws[0]] + NonNull(raws[1..])
  }

  /** One picture is kept exactly when it carries data. */
  lemma NonNullSingle(raw: RawFrame)
    ensures NonNull([raw]) == if raw.data.Some? then [raw] else []
  {
    assert [raw][1..] == [];
  }

  /** Filtering two batches one after the other equals filtering them
      together: together with `NonNullSingle`, the kept pictures are the
      ones with data, each once, in decoder order. */
  lemma {:induction false} NonNullAppend(a: seq<RawFrame>, b: seq<RawFrame>)
    ensures NonNull(a + b) == NonNull(a) + NonNull(b)
    decreases |a|
  {
    if |a| == 0 {
      assert a + b == b;
    } else {
      assert (a + b)[0] == a[0];
      assert (a + b)[1..] == a[1..] + b;
      NonNullAppend(a[1..], b);
    }
  }

  /** `_h264_decode`: drops pictures without data, shapes the rest in order,
      and raises if any of them does not fit its shape. */
  function H264Decode(raws: seq<RawFrame>): (r: Result<seq<Image>, DecodeError>)
    ensures r.Ok? <==> forall i :: 0 <= i < |raws| ==> Reshapeable(raws[i])
    ensures r.Ok? ==> |r.value| == |NonNull(raws)|
    ensures r.Ok? ==> forall i :: 0 <= i < |r.value| ==> DecodeFrame(NonNull(raws)[i]) == Ok(r.value[i])
  {
    if |raws| == 0 then Ok([])
    else
      var rest := H264Decode(raws[1..]);
      if raws[0].data.None? then rest
      else match DecodeFrame(raws[0])
        case Err(e) => Err(e)
        case Ok(img) =>
          match rest
          case Err(e) => Err(e)
          case Ok(imgs) => Ok([img] + imgs)
  }

  /** Splitting bytes into pixels and reading them back gives the bytes. */
  lemma {:induction false} PixelsRoundTrip(bytes: seq<byte>)
    requires |bytes| % 3 == 0
    ensures PixelBytes(Pixels(bytes)) == bytes
    decreases |bytes|
  {
    if |bytes| > 0 {
      var tail := bytes[3..];
      assert |tail| % 3 == 0;
      PixelsRoundTrip(tail);
      var ps := Pixels(bytes);
      assert ps == [Pixel(bytes[0], bytes[1], bytes[2])] + Pixels(tail);
      assert ps[0] == Pixel(bytes[0], bytes[1], bytes[2]) && ps[1..] == Pixels(tail);
      assert PixelBytes(ps) == [bytes[0], bytes[1], bytes[2]] + PixelBytes(Pixels(tail));
      assert bytes == [bytes[0], bytes[1], bytes[2]] + tail;
    }
  }

  /** Reshaping bytes into rows and reading them back gives the bytes. */
  lemma {:induction false} RowsRoundTrip(data: seq<byte>, h: nat, cols: nat)
    requires |data| == h * cols * 3
    ensures ImageBytes(Rows(data, h, cols)) == data
    decreases h
  {
    if h > 0 {
      var k := cols * 3;
      RowSplit(h, cols);
      var head, tail := data[..k], data[k..];
      RowsCons(data, h, cols);
      PixelsRoundTrip(head);
      RowsRoundTrip(tail, h - 1, cols);
      ImageBytesCons(Rows(data, h, cols));
      assert data == head + tail;
    }
  }

  lemma RowsCons(data: seq<byte>, h: nat, cols: nat)
    requires |data| == h * cols * 3 && h > 0
    ensures cols * 3 <= |data| && |data[cols * 3..]| == (h - 1) * cols * 3
    ensures var r := Rows(data, h, cols);
      r[0] == Pixels(data[..cols * 3]) && r[1..] == Rows(data[cols * 3..], h - 1, cols)
  {
    RowSplit(h, cols);
  }

  lemma ImageBytesCons(img: Image)
    requires |img| > 0
    ensures ImageBytes(img) == PixelBytes(img[0]) + ImageBytes(img[1..])
  {
  }

  /** When the reported width covers the whole line, decoding loses and
      invents nothing: the picture's bytes are exactly the decoder's bytes. */
  lemma DecodeFrameRoundTrip(raw: RawFrame)
    requires raw.data.Some? && Reshapeable(raw)
    requires raw.w >= raw.lineSize / 3
    ensures DecodeFrame(raw).Ok? && ImageBytes(DecodeFrame(raw).value) == raw.data.value
  {
    var cols := raw.lineSize / 3;
    var img := Rows(raw.data.value, raw.h, cols);
    forall i | 0 <= i < |img|
      ensures img[i][..Min(raw.w, |img[i]|)] == img[i]
    {
    }
    assert Crop(img, raw.w) == img;
    RowsRoundTrip(raw.data.value, raw.h, cols);
  }

  // ---------------------------------------------------------------------
  // Datagram reassembly (`_receive_video_thread`)
  // ---------------------------------------------------------------------

  /** One result of `recvfrom`: the received bytes, or a `socket.error`. */
  datatype Datagram = Packet(bytes: seq<byte>) | SocketError

  /** The external H.264 decoder, as a function of the bytes handed to it. */
  type Decoder = seq<byte> -> seq<RawFrame>

  /** The receive thread's state: the driver it publishes into, the
      `packet_data` buffer, and whether the loop is still running (an
      exception other than `socket.error` ends it). */
  datatype Receiver = Receiver(driver: Driver, buffer: seq<byte>, alive: bool)

  /** After one datagram: the new state and the buffer handed to the decoder. */
  datatype Received = Received(next: Receiver, handed: Option<seq<byte>>)

  /** One iteration of the receive loop. */
  function ReceiveStep(r: Receiver, g: Datagram, decoder: Decoder): (s: Received)
    ensures !r.alive || g.SocketError? ==> s == Received(r, None)
    ensures r.alive && g.Packet? && |g.bytes| == FullDatagram ==>
      s == Received(r.(buffer := r.buffer + g.bytes), None)
    ensures r.alive && g.Packet? && |g.bytes| != FullDatagram ==>
      && s.handed == Some(r.buffer + g.bytes)
      && (s.next.alive <==> H264Decode(decoder(r.buffer + g.bytes)).Ok?)
      && (s.next.alive ==> s.next.buffer == [])
    ensures s.next.driver == r.driver.(frame := s.next.driver.frame)
  {
    if !r.alive then Received(r, None)
    else match g
      case SocketError => Received(r, None)
      case Packet(bytes) =>
        var buf := r.buffer + bytes;
        if |bytes| == FullDatagram then Received(r.(buffer := buf), None)
        else match H264Decode(decoder(buf))
          case Err(_) => Received(Receiver(r.driver, buf, false), Some(buf))
          case Ok(frames) => Received(Receiver(PublishAll(r.driver, frames), [], true), Some(buf))
  }

  /** What a datagram does to the published frame: a terminator whose buffer
      decodes makes the last decoded picture current (or leaves the frame alone
      when there is none); every other datagram leaves the driver untouched. */
  lemma StepPublishesLastDecoded(r: Receiver, g: Datagram, decoder: Decoder)
    ensures var s := ReceiveStep(r, g, decoder);
      s.handed.None? ==> s.next.driver == r.driver
    ensures var s := ReceiveStep(r, g, decoder);
      s.handed.Some? && H264Decode(decoder(s.handed.value)).Ok? ==>
        var frames := H264Decode(decoder(s.handed.value)).value;
        s.next.driver.frame == (if |frames| > 0 then Some(frames[|frames| - 1]) else r.driver.frame)
    ensures var s := ReceiveStep(r, g, decoder);
      s.handed.Some? && H264Decode(decoder(s.handed.value)).Err? ==> s.next.driver == r.driver
  {
  }

  /** The payloads of the received packets, in order. */
  function Payloads(gs: seq<Datagram>): seq<seq<byte>>
  {
    if |gs| == 0 then []
    else if gs[0].SocketError? then Payloads(gs[1..])
    else [gs[0].bytes] + Payloads(gs[1..])
  }

  /** The receive loop run over a sequence of datagrams. */
  datatype Run = Run(final: Receiver, handed: seq<seq<byte>>)

  function ReceiveAll(r: Receiver, gs: seq<Datagram>, decoder: Decoder): (run: Run)
    ensures !r.alive ==> run == Run(r, [])
    ensures |run.handed| <= |gs|
    ensures run.final.alive ==> r.alive
    decreases |gs|
  {
    if |gs| == 0 || !r.alive then Run(r, [])
    else
      var s := ReceiveStep(r, gs[0], decoder);
      var rest := ReceiveAll(s.next, gs[1..], decoder);
      Run(rest.final, OptionToSeq(s.handed) + rest.handed)
  }

  /** The payload of one datagram, as a list of zero or one chunks. */
  function Payload(g: Datagram): seq<seq<byte>>
  {
    if g.Packet? then [g.bytes] else []
  }

  lemma PayloadsCons(gs: seq<Datagram>)
    requires |gs| > 0
    ensures Payloads(gs) == Payload(gs[0]) + Payloads(gs[1..])
  {
  }

  /** One step conserves bytes: the chunk handed on (if any) followed by the
      new buffer is the old buffer followed by the datagram's payload. */
  lemma StepConservesBytes(r: Receiver, g: Datagram, decoder: Decoder)
    requires r.alive && ReceiveStep(r, g, decoder).next.alive
    ensures var s := ReceiveStep(r, g, decoder);
      Flatten(OptionToSeq(s.handed)) + s.next.buffer == r.buffer + Flatten(Payload(g))
  {
    var s := ReceiveStep(r, g, decoder);
    if g.Packet? {
      assert [g.bytes][1..] == [];
      assert Flatten(Payload(g)) == g.bytes;
      if |g.bytes| != FullDatagram {
        assert [r.buffer + g.bytes][1..] == [];
        assert Flatten(OptionToSeq(s.handed)) == r.buffer + g.bytes;
      }
    }
  }

  /** Reassembly neither loses nor duplicates bytes: what was handed to the
      decoder, followed by the working buffer, is the original buffer followed
      by every received payload. */
  lemma {:induction false} ReassemblyConservesBytes(r: Receiver, gs: seq<Datagram>, decoder: Decoder)
    requires r.alive
    ensures var run := ReceiveAll(r, gs, decoder);
      run.final.alive ==> Flatten(run.handed) + run.final.buffer == r.buffer + Flatten(Payloads(gs))
    decreases |gs|
  {
    if |gs| > 0 {
      var s := ReceiveStep(r, gs[0], decoder);
      var rest := ReceiveAll(s.next, gs[1..], decoder);
      assert ReceiveAll(r, gs, decoder) == Run(rest.final, OptionToSeq(s.handed) + rest.handed);
      if rest.final.alive {
        assert s.next.alive;
        ReassemblyConservesBytes(s.next, gs[1..], decoder);
        StepConservesBytes(r, gs[0], decoder);
        FlattenAppend(OptionToSeq(s.handed), rest.handed);
        PayloadsCons(gs);
        FlattenAppend(Payload(gs[0]), Payloads(gs[1..]));
        var h0, p0 := Flatten(OptionToSeq(s.handed)), Flatten(Payload(gs[0]));
        var hr, pr := Flatten(rest.handed), Flatten(Payloads(gs[1..]));
        assert hr + rest.final.buffer == s.next.buffer + pr;
        assert h0 + s.next.buffer == r.buffer + p0;
        assert Flatten(ReceiveAll(r, gs, decoder).handed) == h0 + hr;
        assert Flatten(Payloads(gs)) == p0 + pr;
        SeqAssoc(h0, hr, rest.final.buffer);
        SeqAssoc(h0, s.next.buffer, pr);
        SeqAssoc(r.buffer, p0, pr);
      }
    }
  }

  /** A run of full-size datagrams (socket errors in between are harmless)
      ended by one short datagram hands the decoder exactly the concatenation
      of their payloads after what was already buffered, once, and leaves the
      buffer empty if decoding succeeded. */
  lemma {:induction false} FrameReassembly(r: Receiver, gs: seq<Datagram>, decoder: Decoder)
    requires r.alive && |gs| > 0
    requires gs[|gs| - 1].Packet? && |gs[|gs| - 1].bytes| != FullDatagram
    requires forall i :: 0 <= i < |gs| - 1 ==> gs[i].SocketError? || |gs[i].bytes| == FullDatagram
    ensures var run := ReceiveAll(r, gs, decoder);
      var whole := r.buffer + Flatten(Payloads(gs));
      && run.handed == [whole]
      && (run.final.alive <==> H264Decode(decoder(whole)).Ok?)
      && (run.final.alive ==> run.final.buffer == [])
    decreases |gs|
  {
    var s := ReceiveStep(r, gs[0], decoder);
    if |gs| == 1 {
      assert gs[1..] == [];
      assert Payloads(gs) == [gs[0].bytes];
      assert [gs[0].bytes][1..] == [];
      assert Flatten(Payloads(gs)) == gs[0].bytes;
      assert ReceiveAll(s.next, gs[1..], decoder) == Run(s.next, []);
      assert OptionToSeq(s.handed) == [r.buffer + gs[0].bytes];
    } else {
      FrameReassembly(s.next, gs[1..], decoder);
      match gs[0]
      case SocketError =>
        assert Payloads(gs) == Payloads(gs[1..]);
      case Packet(bytes) =>
        assert Payloads(gs) == [bytes] + Payloads(gs[1..]);
        assert Flatten(Payloads(gs)) == bytes + Flatten(Payloads(gs[1..]));
        assert s.next.buffer == r.buffer + bytes;
        assert r.buffer + Flatten(Payloads(gs)) == s.next.buffer + Flatten(Payloads(gs[1..]));
    }
  }

  /** The receive loop writes only `frame`: the flags and the frozen
      snapshot are whatever the driver had. */
  lemma {:induction false} ReceptionTouchesOnlyFrame(r: Receiver, gs: seq<Datagram>, decoder: Decoder)
    ensures var fin := ReceiveAll(r, gs, decoder).final.driver;
      fin == r.driver.(frame := fin.frame)
    decreases |gs|
  {
    if |gs| > 0 && r.alive {
      var s := ReceiveStep(r, gs[0], decoder);
      ReceptionTouchesOnlyFrame(s.next, gs[1..], decoder);
    }
  }

  /** While frozen, whatever the receive loop decodes, `read` keeps returning
      the snapshot taken at freeze time. */
  lemma FrozenReadIgnoresReception(r: Receiver, gs: seq<Datagram>, decoder: Decoder)
    requires r.driver.frozen
    ensures Read(ReceiveAll(r, gs, decoder).final.driver) == Read(r.driver)
  {
    ReceptionTouchesOnlyFrame(r, gs, decoder);
  }
}
